=== FILE: README.md ===
# dcf_c in Dafny

A model of the CANopen C-header generator `dcf_c`. The generator takes the object dictionary
parsed from an EDS/DCF configuration file. For every entry (a Variable, a Record or an Array) it
writes a block of C text:
- `#define` macros for the index, the description, the data type, the size and the default value;
- a `struct`: a Variable's has the single field `value`. A Record's or Array's has one field per
  sub-entry except the one at position 0, which by convention holds the entry count and is
  skipped, so k sub-entries give k-1 fields;
- an inline "fill with default" function. For a Record or Array it assigns the writable fields
  and leaves a comment for the others; for a Variable it assigns `p->value` whatever the access type.

It wraps all of this in a header guard built from the device name and the base name of the
configuration file. C type names come from the CiA 301 data-type registry: an enumeration of
30 codes, a table from code to C type, and the lookup `c_type`.

The project has one module per concern:

| file | module | models |
|---|---|---|
| `wrappers.dfy` | `Wrappers` | `Option` |
| `numerals.dfy` | `Numerals` | `str(int)`, `f"{n:0wX}"`, and a decimal `int(str)`, with their round trips |
| `data_type.dfy` | `DataTypes` | the `data_type` enumeration, the C-name table and `c_type` |
| `sanitize.dfy` | `Sanitize` | `str_low` and `str_to_define` |
| `values.dfy` | `Values` | default values, `format_value` and `str_size` |
| `dictionary.dfy` | `Dictionary` | dictionary entries and the "all but the first sub-entry" iteration |
| `emitter.dfy` | `Emitter` | the lines each entry and each sub-entry helper contributes, as functions |
| `assembler.dfy` | `Assembler` | the base name, the guard, the prelude, the closing and the whole header, as functions |
| `header_file.dfy` | `Output` | the output file as a class with a `lines` field, and the writing procedures as methods |

Every `write` of the generator ends in a newline, so the output is modelled as a sequence of
lines. A single write appends the lines its fixed text holds, with every interpolated name or
value kept inside the line it is written into. Each writing method is proved to append
exactly the lines that the matching `Emitter` or `Assembler` function describes, and to leave
everything written earlier untouched. The properties of the text itself are proved as lemmas
about those functions.

## Model

| member | source | states |
|---|---|---|
| DataTypes.FromCode | CIA_301/data_type.py:3-33 | Looking a code up in the enumeration, when it succeeds, gives a member whose value is that code |
| DataTypes.CodeRoundTrip | CIA_301/data_type.py:3-33 | Every member is found again from its own numeric value |
| DataTypes.Code | CIA_301/data_type.py:3-33 | The value of every member is one of the enumeration's codes |
| DataTypes.CName | CIA_301/data_type.py:36-67 | Every table name is non-empty and starts with a lower-case letter, and "void" is the name of UNKNOWN and of no other member |
| DataTypes.MembersAreExactly | CIA_301/data_type.py:3-33 | The members are exactly 0x00-0x23, minus the gaps 0x0E, 0x17 and 0x1C-0x1F |
| DataTypes.CTypeOfCode | CIA_301/data_type.py:78-82 | A code outside the enumeration gives "void"; the code of a member gives that member's table name |
| DataTypes.CType | CIA_301/data_type.py:69-82 | `c_type` gives no name exactly when its argument is a string that does not parse as an integer. An integer gets the C type of that code ("void" outside the enumeration), and a member gets its own table name |
| DataTypes.CTypeOfMember | CIA_301/data_type.py:78-80 | The numeric value of any member, passed as an integer, gets that member's table name |
| DataTypes.GapsAreVoid | CIA_301/data_type.py:78-82 | Negative codes, the gap codes and codes past 0x23 all give "void", never None |
| DataTypes.TimeTypesShareName | CIA_301/data_type.py:49-50 | TIME_OF_DAY and TIME_DIFFERENCE are distinct members with distinct codes that share "time_t", so the table is not injective |
| DataTypes.TableSamples | CIA_301/data_type.py:36-82 | Code 7 gives uint32_t, 9 gives char*, 0x1B gives uint64_t, 0x23 gives identity_t, 0x0E gives void, "7" gives uint32_t and "abc" gives None |
| DataTypes.StringParsesLikeInt | CIA_301/data_type.py:71-79 | Any string that parses as a decimal integer gives the same result as that integer, whatever its form: leading zeros and "-0" included |
| DataTypes.StringLikeInt | CIA_301/data_type.py:71-79 | Corollary of the above: the canonical decimal text of any integer gives the same result as the integer itself |
| DataTypes.LeadingZerosSample | CIA_301/data_type.py:71-79 | "007" gives the same as 7 (uint32_t), and "-0" the same as 0 (void) |
| DataTypes.EnumLikeInt | CIA_301/data_type.py:78-80 | A member passed directly gives the same result as its numeric value |
| Numerals.DigitsRoundTrip | dcf_c.py:30 | The digits of a natural number in any base from 2 to 16 form a numeral that reads back as that number |
| Numerals.DigitsBound | dcf_c.py:88 | A natural number below base^k has at most k digits in that base |
| Numerals.Hex | dcf_c.py:33 | Zero-padded upper-case hex is at least as long as the requested width, never empty, and uses only the digits 0-9 and A-F |
| Numerals.HexRoundTrip | dcf_c.py:33 | Zero-padded upper-case hex is at least as long as the requested width, uses only hex digits, and reads back in base 16 as the number |
| Numerals.IntToDecimal | dcf_c.py:30 | `str(n)` is never empty and starts with '-' exactly when n is negative, with at least one character after the sign |
| Numerals.ParseDecimal | CIA_301/data_type.py:74 | Parsing succeeds exactly on an optional '-' followed by one or more decimal digits; a text with '-' gives a value of at most 0 and any other a value of at least 0 |
| Numerals.DecimalRoundTrip | CIA_301/data_type.py:74 | Parsing the decimal text of any integer, with its sign, gives the integer back |
| Sanitize.Replaced | dcf_c.py:17 | The replacement keeps the length and replaces exactly the characters outside [A-Za-z0-9] with '_' |
| Sanitize.StrLow | dcf_c.py:15-17 | `str_low` keeps the length, outputs only [a-z0-9_], lower-cases each alphanumeric character in place, and turns every other character into '_' |
| Sanitize.StrToDefine | dcf_c.py:19-21 | `str_to_define` keeps the length, outputs only [A-Z0-9_], upper-cases each alphanumeric character in place, and turns every other character into '_' |
| Sanitize.StrLowFixesTokens | dcf_c.py:15-17 | A string that is already all [a-z0-9_] is left unchanged by `str_low` |
| Sanitize.StrToDefineFixesTokens | dcf_c.py:19-21 | A string that is already all [A-Z0-9_] is left unchanged by `str_to_define` |
| Sanitize.StrLowIdempotent | dcf_c.py:15-17 | Applying `str_low` twice gives the same result as applying it once |
| Sanitize.StrToDefineIdempotent | dcf_c.py:19-21 | Applying `str_to_define` twice gives the same result as applying it once |
| Sanitize.LowOfDefine | dcf_c.py:15-21 | The two sanitisers agree up to case: lower-casing the macro token gives the identifier token |
| Sanitize.PunctuationCollides | dcf_c.py:19-21 | "A-B" and "A.B" both become "A_B", so distinct names can give the same macro |
| Values.Quoted | dcf_c.py:37 | A quoted text is the text with one '"' before it and one after it, and nothing escaped |
| Values.FormatValue | dcf_c.py:23-37 | Gives "0" exactly for an absent value. A negative integer gives text starting with '-', a non-negative one "0x" and at least two digits, and any other value text starting with '"' |
| Values.FormatAbsentAndNegative | dcf_c.py:25-30 | An absent value gives "0"; a negative integer gives text that starts with '-' and parses back to the integer |
| Values.FormatHexRoundTrip | dcf_c.py:32-33 | A non-negative integer gives "0x" and then at least two hex digits that read back in base 16 as the integer |
| Values.FormatOther | dcf_c.py:36-37 | Any other value gives its text in double quotes, with nothing escaped |
| Values.FormatSamples | dcf_c.py:23-37 | None gives 0, 10 gives 0x0A, 0 gives 0x00, 0x1018 gives 0x1018, -5 gives -5, and "abc" gives "abc" in quotes |
| Values.StrSize | dcf_c.py:39-45 | Always a `sizeof(...)` expression. Its argument is a string literal exactly when the code is VISIBLE_STRING |
| Values.StrSizeOfType | dcf_c.py:39-45 | For every member other than VISIBLE_STRING, the size is `sizeof` of that member's C name from the table |
| Values.StrSizeOfVisibleString | dcf_c.py:41-43 | For VISIBLE_STRING, the size is `sizeof` of a string literal holding the value's text, never `sizeof(char*)` |
| Values.StrSizeSamples | dcf_c.py:39-45 | A VISIBLE_STRING "hello" gives sizeof("hello"); an UNSIGNED32 gives sizeof(uint32_t) |
| Dictionary.SkipFirst | dcf_c.py:91-93 | The passes visit every sub-entry except the one at position 0, in stored order: k-1 of k, or none when there are none |
| Dictionary.SkipFirstIsMetadataSkip | dcf_c.py:91-93 | When subindices increase and the first sub-entry has subindex 0, skipping by position is the same as skipping subindex 0 |
| Dictionary.SkipFirstDropsDataWithoutMetadata | dcf_c.py:91-93 | When there is no subindex 0, skipping by position drops a real sub-entry (subindex 1) |
| Dictionary.SkipFirstSnoc | dcf_c.py:91-94 | Each later iteration of a pass visits exactly one more sub-entry, at the end |
| Emitter.SubobjectLines | dcf_c.py:165-171 | `write_subobject_to_header` writes six lines; what each line holds is stated by `SubobjectIdentity` and `SubobjectTypeAndSize` |
| Emitter.SubobjectIdentity | dcf_c.py:166-168 | A sub-entry's macros open with a comment holding its name, then define its DESCRIPTION as its quoted name and its SUBINDEX as its decimal subindex, under a macro prefix built from the device, the four-digit index and the subindex |
| Emitter.SubobjectTypeAndSize | dcf_c.py:169-170 | A sub-entry's DATA_TYPE macro names its C type from the table, and its SIZE macro holds its `str_size` |
| Emitter.StructureLines | dcf_c.py:173-175 | `write_subobject_structure` writes two lines: a comment naming the sub-entry, its sanitised access tag, the four-digit index and the subindex, then the declaration of its field with its C type |
| Emitter.Hex4Exact | dcf_c.py:88 | An index below 0x10000 is written as exactly four upper-case hex digits that read back as the index |
| Emitter.FillLine | dcf_c.py:177-181 | A fill line is an assignment exactly when the access tag is writable. It then assigns the sub-entry's field from that sub-entry's DATA_VALUE macro; otherwise it is a comment that cannot hide an assignment |
| Emitter.WritableIff | dcf_c.py:178 | An access tag is writable exactly when it is two characters spelling RW or WO, in any case |
| Emitter.WritableSamples | dcf_c.py:178 | rw, RW, wo and Wo are writable; ro, const, rww and r_w are not |
| Emitter.NoStar | dcf_c.py:174-181 | A field name and a sanitised access tag never contain '*', so they cannot end a C comment |
| Emitter.SkipNoteStarFree | dcf_c.py:181 | The body of the "Nothing to set" comment has no '*', so the comment cannot close early |
| Emitter.MacroPassShape | dcf_c.py:91-94 | The macro pass is six lines per visited sub-entry; the j-th block is that of the j-th visited sub-entry |
| Emitter.StructPassShape | dcf_c.py:99-102 | The struct pass is two lines per visited sub-entry; the j-th block is that of the j-th visited sub-entry |
| Emitter.FillPassShape | dcf_c.py:108-111 | The fill pass is one line per visited sub-entry; the j-th line is that of the j-th visited sub-entry |
| Emitter.MacroValuesInOrder | dcf_c.py:91-94 | The j-th DATA_VALUE macro is defined for the j-th visited sub-entry, with its formatted default |
| Emitter.MacroTypesInOrder | dcf_c.py:91-94 | The j-th DATA_TYPE macro of the macro pass names the C type of the j-th visited sub-entry |
| Emitter.MacroSizesInOrder | dcf_c.py:91-94 | The j-th SIZE macro of the macro pass holds the `str_size` of the j-th visited sub-entry |
| Emitter.StructFieldsInOrder | dcf_c.py:99-102 | The j-th struct field is declared for the j-th visited sub-entry |
| Emitter.FillLinesInOrder | dcf_c.py:108-111 | The j-th fill line belongs to the j-th visited sub-entry. It assigns that sub-entry's field from its macro exactly when the access tag is writable, and is otherwise a comment, so a non-writable field is never assigned |
| Emitter.CompositeBlock | dcf_c.py:86-139 | A Record's or Array's block sits at fixed offsets: the head (3 lines), the macro pass (6 lines per visited sub-entry), the struct opening (3 lines), the struct pass (2 per visited sub-entry), "};", the fill head (4 lines), the fill pass (1 per visited sub-entry) and "}". The passes visit k-1 of k sub-entries, or none when there are none |
| Emitter.CompositeLines | dcf_c.py:86-139 | A Record's or Array's block has 12 lines plus 9 per visited sub-entry. It opens with the object comment naming its kind, index and name, and ends with "}" |
| Emitter.CompositeHeadLines | dcf_c.py:88-90 | Lines 1 and 2 of a Record's or Array's block define its INDEX as the formatted index, under the sanitised device and entry names, and its DESCRIPTION as its quoted name, with the padding of its kind |
| Emitter.FillTakesDeclaredStruct | dcf_c.py:98-107 | In a Record's or Array's block, the struct opened after the macro pass and the pointer parameter of the fill function carry the same struct name, built from the device, the four-digit index and the entry name |
| Emitter.LaidOutKeyLines | dcf_c.py:86-112 | In any block laid out as head, macro pass, struct, fill function, lines 1 and 2 are those of the head, and the struct's and the fill function's opening lines sit at fixed offsets after the passes |
| Emitter.PassLengths | dcf_c.py:91-111 | For m visited sub-entries the macro pass has 6m lines, the struct pass 2m and the fill pass m |
| Emitter.VariableLines | dcf_c.py:140-161 | A Variable's block has 19 lines. It opens with its object comment. Lines 1 to 6 define, in the source's order, INDEX as the formatted index, SUBINDEX as the decimal subindex, SIZE as its `str_size`, DESCRIPTION as its quoted name, DATA_TYPE as its C type and DATA_VALUE as the formatted default. Line 9 opens the struct, line 10 comments its name and access tag, line 11 declares the one field `value` with that same C type, line 16 opens the fill function taking a pointer to that same struct, line 17 assigns `p->value` from the DATA_VALUE macro, and the block ends with "}" |
| Emitter.VariableIndex | dcf_c.py:143 | A Variable's INDEX macro, under its sanitised device and entry names, holds its formatted index |
| Emitter.VariableSubindex | dcf_c.py:144 | A Variable's SUBINDEX macro holds its subindex in decimal |
| Emitter.VariableSize | dcf_c.py:145 | A Variable's SIZE macro holds its `str_size` |
| Emitter.VariableDescription | dcf_c.py:146 | A Variable's DESCRIPTION macro, under the device name and four-digit index, holds its quoted name |
| Emitter.VariableType | dcf_c.py:147 | A Variable's DATA_TYPE macro names its C type from the table |
| Emitter.Unsigned32Sample | dcf_c.py:145-154 | An UNSIGNED32 Variable such as the Vendor ID at 0x1018 gets DATA_TYPE uint32_t, SIZE sizeof(uint32_t) and the field `uint32_t value;` |
| Emitter.EntryLines | dcf_c.py:85-161 | The block of every kind has at least 12 lines, opens with the object comment of its kind, index and name, and ends with "}" |
| Emitter.ObjectLines | dcf_c.py:85-163 | `write_object_to_header` writes at least 13 lines: the object comment first, then "}" and the blank line last |
| Emitter.VariableFillAlwaysAssigns | dcf_c.py:160 | A Variable's fill function assigns `p->value` from its DATA_VALUE macro whatever its access tag |
| Assembler.Basename | dcf_c.py:57 | The base name is a suffix of the path, has no '/', and is either the whole path or starts right after a '/' |
| Assembler.BasenameSamples | dcf_c.py:57 | "d/m.eds" gives "m.eds", "io" gives "io", and "d/" gives "" |
| Assembler.StrVersion | dcf_c.py:8-13 | The banner reads "Generated with CANopener v0.0.1" |
| Assembler.HeaderGuard | dcf_c.py:58 | The guard is four characters longer than the device name and base name together, ends in "_H_", and holds only [A-Z0-9_] |
| Assembler.Prelude | dcf_c.py:63-72 | The prelude is 15 lines |
| Assembler.Closing | dcf_c.py:79-80 | The closing is 3 lines |
| Assembler.EntriesLines | dcf_c.py:74-76 | No entries give no text, each entry adds at least 13 lines, and the text of a non-empty dictionary ends with a blank line |
| Assembler.EntriesTakeStep | dcf_c.py:75-76 | The text of the first k+1 entries is the text of the first k followed by the block of entry k, so the loop adds one block per iteration |
| Assembler.HeaderAsPieces | dcf_c.py:63-80 | The header is exactly the prelude, then the entries' text, then the closing guard, with nothing between them |
| Assembler.EntriesAppend | dcf_c.py:75-76 | The text for two runs of entries is the text of the first run followed by that of the second: output follows dictionary order |
| Assembler.SingleEntry | dcf_c.py:75-76 | A single entry contributes its own block and nothing else |
| Assembler.HeaderBracketed | dcf_c.py:63-80 | `#ifndef` and `#define` of the guard are lines 8 and 9, the body lies between the prelude and `#endif /* guard */`, and nothing else is added |
| Assembler.HeaderLines | dcf_c.py:55-80 | The whole header has 18 lines plus the entries' text. Line 5 is the date line. Lines 8 and 9 open the guard built from the device name and the base name, the third-last line closes it, and the entries' text lies between line 15 and that closing line |
| Assembler.OnlyDateVaries | dcf_c.py:65 | Two headers written at different times differ only in the date line |
| Output.HeaderFile.Open | dcf_c.py:61 | A newly opened output file is empty |
| Output.HeaderFile.Write | dcf_c.py:63 | A write appends its lines and changes nothing already written |
| Output.HeaderFile.WriteSubobjectToHeader | dcf_c.py:165-171 | Appends the six macro lines of the sub-entry |
| Output.HeaderFile.WriteSubobjectStructure | dcf_c.py:173-175 | Appends the comment and field declaration of the sub-entry |
| Output.HeaderFile.WriteSubobjectFillFunctionAssignations | dcf_c.py:177-181 | Appends the sub-entry's fill line: an assignment exactly when the access tag is writable |
| Output.HeaderFile.WriteMacroPass | dcf_c.py:91-94 | The loop with `continue` at position 0 appends the macro pass of all sub-entries but the first |
| Output.HeaderFile.WriteStructPass | dcf_c.py:99-102 | The loop with `continue` at position 0 appends the struct pass of all sub-entries but the first |
| Output.HeaderFile.WriteFillPass | dcf_c.py:108-111 | The loop with `continue` at position 0 appends the fill pass of all sub-entries but the first |
| Output.HeaderFile.WritePrelude | dcf_c.py:63-72 | Appends the prelude: the format switch, the banner, the guard opening and the two includes |
| Output.HeaderFile.WriteClosing | dcf_c.py:79-80 | Appends the `#endif` of the guard and the closing format switch |
| Output.HeaderFile.WriteComposite | dcf_c.py:86-139 | Appends a Record's or Array's block: head, macro pass, struct, fill function |
| Output.HeaderFile.WriteVariable | dcf_c.py:140-161 | Appends a Variable's block: seven macro-section lines, the one-field struct and the fill function |
| Output.HeaderFile.WriteEntry | dcf_c.py:85-161 | Appends the block of the entry's kind |
| Output.HeaderFile.WriteObjectToHeader | dcf_c.py:85-163 | Appends the block of the entry's kind, then one blank line |
| Output.HeaderFile.WriteEntries | dcf_c.py:75-76 | The loop over the dictionary appends the text of every entry, each entry's block in iteration order |
| Output.GenerateCHeader | dcf_c.py:55-80 | A fresh file holds the whole header: the prelude, then every entry's block in dictionary order, then the closing guard |

## Left out

- `main` and the argument parsing (dcf_c.py:183 onward) are command-line plumbing. They are not part of this model.
- `get_dictionary` and `canopen.RemoteNode` (dcf_c.py:47-53) call an external library that parses EDS/DCF files. The model takes the parsed entries as an input sequence of `Entry` values instead. Their order is the dictionary's iteration order, taken as given.
- Opening the output file by name and reporting `IOError` (dcf_c.py:60-61, 82-83) are not modelled. `GenerateCHeader` returns a fresh in-memory `HeaderFile` instead of writing to a path, and writes cannot fail.
- The local time `datetime.now()` (dcf_c.py:65) is nondeterministic. It is the `timestamp` parameter of `GenerateCHeader`, already formatted.
- Values other than integers and None, such as strings and floats, are carried as the text Python's `str()` gives them. Python's own float and string formatting is not modelled.
- `Values.StrSize`: a data-type code outside the enumeration makes `data_type(code)` raise `ValueError` (dcf_c.py:41). The model excludes such codes by a precondition instead of modelling the exception. An entry must satisfy `Dictionary.Emittable` to be written. In the source only `IOError` is caught (dcf_c.py:82), so such a code aborts `generate_c_header` part-way through and leaves a truncated file behind. This goes against the design's rule that generation never aborts only because a type code is unknown: `c_type` alone maps such codes to "void", but `str_size` does not.
- Assembler.Basename: models `os.path.basename` as it behaves on POSIX systems (`posixpath`), splitting only at '/'. On Windows `os.path` is `ntpath`, which also splits at `\` and drops a drive prefix such as "C:". For a path like `C:\d\m.eds` the model keeps the whole path as the base name, so the "Base file" line and the guard would be built from `C:\d\m.eds` instead of `m.eds`.
- Newlines inside interpolated text are not split into lines. This covers entry and sub-entry names, string values, the path and the timestamp. A name that holds "\n" is one line of the model but two lines of the file. So the line counts and positions stated by `HeaderLines`, `ObjectLines` and their neighbours count the lines of the writes' fixed text, not the physical lines of the file.
- `Numerals.ParseDecimal`: Python's `int()` (CIA_301/data_type.py:74) also accepts surrounding whitespace, a '+' sign and underscores between digits. The model accepts only an optional '-' followed by decimal digits.
- `DataTypes.CType`: other argument types are not modelled. A float code such as 7.0, for example, would also find its member.
- The `ValueError` fallback inside `format_value` (dcf_c.py:34-35) cannot be reached for an integer and is not modelled.
- Python's `bool` being a subclass of `int` is not modelled: True would format as 0x01.
- Unicode handling in `re`, `.lower()` and `.upper()` is reduced to one character at a time. Every character outside ASCII [A-Za-z0-9] becomes '_' before the case change, so only ASCII case mapping remains.
- An object of none of the three kinds, for which `write_object_to_header` writes only the blank line (dcf_c.py:163), cannot be expressed: `Entry` has exactly three kinds.
- The Record and Array branches (dcf_c.py:86-112 and 113-139) are one method, `WriteComposite`, and one function, `CompositeLines`. The branches differ only in the words "Record"/"Array" and in the macro padding, which the model carries as values.
- `Assembler.HeaderBracketed` and `Assembler.OnlyDateVaries` are stated about `Document`, the prelude–body–closing frame, for any body. `HeaderLines` is that frame applied to the real guard, base name and entry text.
- `Dictionary.SkipFirst` skips by position, as the loops do. The model proves that this equals skipping subindex 0 only when subindices increase and the first one is 0. It does not assume that the provider always hands over records in that form.

=== FILE: assembler.dfy ===
/**
 * The text `generate_c_header` writes: a fixed prelude with the version
 * banner, the base file name, the date and the opening header guard, then
 * the block of every dictionary entry in iteration order, then the closing
 * guard.
 */
module Assembler {
  import opened Sanitize
  import opened Dictionary
  import opened Emitter

  const MajorVersion: nat := 0
  const MinorVersion: nat := 0
  const FixVersion: nat := 1

  /** `str_version`: the banner naming the generator and its version, 0.0.1. */
  function StrVersion(): (r: string)
    ensures r == "Generated with CANopener v0.0.1"
  {
    assert Dec(0) == "0" && Dec(1) == "1";
    "Generated with CANopener v" + Dec(MajorVersion) + "." + Dec(MinorVersion) + "." + Dec(FixVersion)
  }

  /** `os.path.basename` on a POSIX path: what follows the last '/'. */
  function Basename(path: string): (r: string)
    ensures |r| <= |path| && r == path[|path| - |r|..]
    ensures '/' !in r
    ensures |r| == |path| || path[|path| - |r| - 1] == '/'
  {
    if path == [] then []
    else if path[|path| - 1] == '/' then []
    else Basename(path[..|path| - 1]) + [path[|path| - 1]]
  }

  lemma BasenameSamples()
    ensures Basename("d/m.eds") == "m.eds"
    ensures Basename("io") == "io"
    ensures Basename("d/") == ""
  {
    assert "d/m.eds"[..2] == "d/";
    assert Basename("d/m") == "m";
    assert Basename("d/m.") == "m.";
    assert Basename("d/m.e") == "m.e";
    assert Basename("d/m.ed") == "m.ed";
  }

  /**
   * `<DEVICE>_<BASE FILE>_H_`: the macro that guards the header. It has one
   * character per character of the two names plus four, ends in "_H_", and
   * is a valid upper-case C identifier tail whatever the names.
   */
  function HeaderGuard(dev: string, base: string): (r: string)
    ensures |r| == |dev| + |base| + 4
    ensures r[|r| - 3..] == "_H_"
    ensures forall k :: 0 <= k < |r| ==> IsDefineToken(r[k])
  {
    GuardIsDefineToken(StrToDefine(dev), StrToDefine(base));
    StrToDefine(dev) + "_" + StrToDefine(base) + "_H_"
  }

  /** Two runs of define tokens joined into a guard give define tokens only. */
  lemma GuardIsDefineToken(d: string, b: string)
    requires forall k :: 0 <= k < |d| ==> IsDefineToken(d[k])
    requires forall k :: 0 <= k < |b| ==> IsDefineToken(b[k])
    ensures forall k :: 0 <= k < |d + "_" + b + "_H_"| ==> IsDefineToken((d + "_" + b + "_H_")[k])
  {
    var g := d + "_" + b + "_H_";
    forall k | 0 <= k < |g| ensures IsDefineToken(g[k]) {
      if k < |d| {
        assert g[k] == d[k];
      } else if k == |d| {
        assert g[k] == '_';
      } else if k < |d| + 1 + |b| {
        assert g[k] == b[k - |d| - 1];
      } else {
        assert g[k] in "_H_";
      }
    }
  }

  /**
   * The blocks of the entries, one after the other in iteration order: empty
   * for no entries, at least thirteen lines per entry, and a blank line last.
   */
  function EntriesLines(dev: string, dict: seq<Entry>): (r: seq<string>)
    requires forall j :: 0 <= j < |dict| ==> Emittable(dict[j])
    ensures r == [] <==> dict == []
    ensures |r| >= 13 * |dict|
    ensures dict != [] ==> r[|r| - 1] == ""
  {
    if dict == [] then []
    else EntriesLines(dev, dict[..|dict| - 1]) + ObjectLines(dev, dict[|dict| - 1])
  }

  /** One more entry adds its block at the end. */
  lemma EntriesSnoc(dev: string, dict: seq<Entry>, e: Entry)
    requires forall j :: 0 <= j < |dict| ==> Emittable(dict[j])
    requires Emittable(e)
    ensures forall j :: 0 <= j < |dict + [e]| ==> Emittable((dict + [e])[j])
    ensures EntriesLines(dev, dict + [e]) == EntriesLines(dev, dict) + ObjectLines(dev, e)
  {
    assert (dict + [e])[..|dict|] == dict;
  }

  /** The blocks of two runs of entries follow each other in the same order. */
  lemma {:induction false} EntriesAppend(dev: string, a: seq<Entry>, b: seq<Entry>)
    requires forall j :: 0 <= j < |a| ==> Emittable(a[j])
    requires forall j :: 0 <= j < |b| ==> Emittable(b[j])
    ensures forall j :: 0 <= j < |a + b| ==> Emittable((a + b)[j])
    ensures EntriesLines(dev, a + b) == EntriesLines(dev, a) + EntriesLines(dev, b)
    decreases |b|
  {
    if b == [] {
      assert a + b == a;
    } else {
      var b', e := b[..|b| - 1], b[|b| - 1];
      assert b == b' + [e];
      assert a + b == (a + b') + [e];
      EntriesAppend(dev, a, b');
      EntriesSnoc(dev, a + b', e);
      EntriesSnoc(dev, b', e);
      AppendAssoc(EntriesLines(dev, a), EntriesLines(dev, b'), ObjectLines(dev, e));
    }
  }

  /** The text of one more entry of the dictionary follows the text of those before it. */
  lemma EntriesTakeStep(pre: seq<string>, dev: string, dict: seq<Entry>, k: nat)
    requires forall j :: 0 <= j < |dict| ==> Emittable(dict[j])
    requires k < |dict|
    ensures pre + EntriesLines(dev, dict[..k + 1]) == pre + EntriesLines(dev, dict[..k]) + ObjectLines(dev, dict[k])
  {
    assert dict[..k + 1][..k] == dict[..k];
    AppendAssoc(pre, EntriesLines(dev, dict[..k]), ObjectLines(dev, dict[k]));
  }

  /** Each entry contributes its own block and nothing else. */
  lemma SingleEntry(dev: string, e: Entry)
    requires Emittable(e)
    ensures EntriesLines(dev, [e]) == ObjectLines(dev, e)
  {
    assert [e][..0] == [];
  }

  /** The opening lines, up to and including the two `#include`s. */
  function Prelude(guard: string, base: string, timestamp: string): (r: seq<string>)
    ensures |r| == 15
  {
    [ "/* clang-format off */", "",
      "/**",
      " * " + StrVersion(),
      " * Base file: " + base,
      " * Date: " + timestamp,
      " */", "",
      "#ifndef " + guard,
      "#define " + guard, "",
      "#include <stdlib.h>", "",
      "#include <stdint.h>", "" ]
  }

  /** The closing guard and the trailing formatter switch. */
  function Closing(guard: string): (r: seq<string>)
    ensures |r| == 3
  {
    [ "#endif /* " + guard + " */", "", "/* clang-format on */" ]
  }

  /** A header around a body of entry text: prelude, body, closing. */
  function Document(guard: string, base: string, timestamp: string, body: seq<string>): seq<string> {
    Prelude(guard, base, timestamp) + body + Closing(guard)
  }

  /**
   * The whole header `generate_c_header` writes for the configuration file at
   * `path`, the device name `dev`, the entries `dict` in iteration order and
   * the formatted local time `timestamp`: the guard of the device and the base
   * name opens right after the banner and closes after the entries' blocks,
   * which sit between the prelude and the closing lines.
   */
  function HeaderLines(path: string, dev: string, timestamp: string, dict: seq<Entry>): (r: seq<string>)
    requires forall j :: 0 <= j < |dict| ==> Emittable(dict[j])
    ensures |r| == 18 + |EntriesLines(dev, dict)|
    ensures r[5] == " * Date: " + timestamp
    ensures r[8] == "#ifndef " + HeaderGuard(dev, Basename(path))
    ensures r[9] == "#define " + HeaderGuard(dev, Basename(path))
    ensures r[|r| - 3] == "#endif /* " + HeaderGuard(dev, Basename(path)) + " */"
    ensures r[15..|r| - 3] == EntriesLines(dev, dict)
  {
    HeaderBracketed(HeaderGuard(dev, Basename(path)), Basename(path), timestamp, EntriesLines(dev, dict));
    Document(HeaderGuard(dev, Basename(path)), Basename(path), timestamp, EntriesLines(dev, dict))
  }

  /** The header is the prelude, then the entries' text, then the closing guard. */
  lemma HeaderAsPieces(path: string, dev: string, timestamp: string, dict: seq<Entry>)
    requires forall j :: 0 <= j < |dict| ==> Emittable(dict[j])
    ensures HeaderLines(path, dev, timestamp, dict)
         == Prelude(HeaderGuard(dev, Basename(path)), Basename(path), timestamp)
            + EntriesLines(dev, dict) + Closing(HeaderGuard(dev, Basename(path)))
  {
  }

  /**
   * The guard opens right after the banner and closes after the body: the
   * text of the entries sits between `#ifndef`/`#define` and `#endif`.
   */
  lemma HeaderBracketed(guard: string, base: string, timestamp: string, body: seq<string>)
    ensures var r := Document(guard, base, timestamp, body);
      |r| == 18 + |body| &&
      r[5] == " * Date: " + timestamp &&
      r[8] == "#ifndef " + guard &&
      r[9] == "#define " + guard &&
      r[|r| - 3] == "#endif /* " + guard + " */" &&
      r[15..|r| - 3] == body
  {
    var r := Document(guard, base, timestamp, body);
    assert r[15..|r| - 3] == body;
  }

  /** Two headers written at different times differ only in the date line. */
  lemma OnlyDateVaries(guard: string, base: string, t1: string, t2: string, body: seq<string>)
    ensures var r1, r2 := Document(guard, base, t1, body), Document(guard, base, t2, body);
      |r1| == |r2| &&
      r1[5] == " * Date: " + t1 && r2[5] == " * Date: " + t2 &&
      forall i :: 0 <= i < |r1| && i != 5 ==> r1[i] == r2[i]
  {
    var p1, p2 := Prelude(guard, base, t1), Prelude(guard, base, t2);
    assert forall i :: 0 <= i < 15 && i != 5 ==> p1[i] == p2[i];
  }
}

=== FILE: data_type.dfy ===
/**
 * The registry of CANopen data-type codes (CiA 301 object dictionary data
 * types) and the C type name the generator emits for each of them.
 */
module DataTypes {
  import opened Wrappers
  import Numerals

  /** The closed enumeration of data-type codes the generator knows. */
  datatype DataType =
    | Unknown | Boolean | Integer8 | Integer16 | Integer32
    | Unsigned8 | Unsigned16 | Unsigned32 | Real32
    | VisibleString | OctetString | UnicodeString
    | TimeOfDay | TimeDifference | Domain
    | Integer24 | Real64 | Integer40 | Integer48 | Integer56 | Integer64
    | Unsigned24 | Unsigned40 | Unsigned48 | Unsigned56 | Unsigned64
    | PdoCommunicationParameter | PdoMapping | SdoParameter | Identity

  /** The numeric value of each enumeration member: one of the listed codes, never a gap. */
  function Code(t: DataType): (r: int)
    ensures IsMember(r)
  {
    match t
    case Unknown => 0x00
    case Boolean => 0x01
    case Integer8 => 0x02
    case Integer16 => 0x03
    case Integer32 => 0x04
    case Unsigned8 => 0x05
    case Unsigned16 => 0x06
    case Unsigned32 => 0x07
    case Real32 => 0x08
    case VisibleString => 0x09
    case OctetString => 0x0A
    case UnicodeString => 0x0B
    case TimeOfDay => 0x0C
    case TimeDifference => 0x0D
    case Domain => 0x0F
    case Integer24 => 0x10
    case Real64 => 0x11
    case Integer40 => 0x12
    case Integer48 => 0x13
    case Integer56 => 0x14
    case Integer64 => 0x15
    case Unsigned24 => 0x16
    case Unsigned40 => 0x18
    case Unsigned48 => 0x19
    case Unsigned56 => 0x1A
    case Unsigned64 => 0x1B
    case PdoCommunicationParameter => 0x20
    case PdoMapping => 0x21
    case SdoParameter => 0x22
    case Identity => 0x23
  }

  /** The enumeration constructor `data_type(n)`: None where Python raises ValueError. */
  function FromCode(n: int): (r: Option<DataType>)
    ensures r.Some? ==> Code(r.value) == n
  {
    if n == 0x00 then Some(Unknown)
    else if n == 0x01 then Some(Boolean)
    else if n == 0x02 then Some(Integer8)
    else if n == 0x03 then Some(Integer16)
    else if n == 0x04 then Some(Integer32)
    else if n == 0x05 then Some(Unsigned8)
    else if n == 0x06 then Some(Unsigned16)
    else if n == 0x07 then Some(Unsigned32)
    else if n == 0x08 then Some(Real32)
    else if n == 0x09 then Some(VisibleString)
    else if n == 0x0A then Some(OctetString)
    else if n == 0x0B then Some(UnicodeString)
    else if n == 0x0C then Some(TimeOfDay)
    else if n == 0x0D then Some(TimeDifference)
    else if n == 0x0F then Some(Domain)
    else if n == 0x10 then Some(Integer24)
    else if n == 0x11 then Some(Real64)
    else if n == 0x12 then Some(Integer40)
    else if n == 0x13 then Some(Integer48)
    else if n == 0x14 then Some(Integer56)
    else if n == 0x15 then Some(Integer64)
    else if n == 0x16 then Some(Unsigned24)
    else if n == 0x18 then Some(Unsigned40)
    else if n == 0x19 then Some(Unsigned48)
    else if n == 0x1A then Some(Unsigned56)
    else if n == 0x1B then Some(Unsigned64)
    else if n == 0x20 then Some(PdoCommunicationParameter)
    else if n == 0x21 then Some(PdoMapping)
    else if n == 0x22 then Some(SdoParameter)
    else if n == 0x23 then Some(Identity)
    else None
  }

  /**
   * The table `canopen_data_type_to_c_string`: a C type name for every member,
   * starting with a lower-case letter; "void" only for UNKNOWN.
   */
  function CName(t: DataType): (r: string)
    ensures |r| > 0 && 'a' <= r[0] <= 'z'
    ensures r == "void" <==> t == Unknown
  {
    match t
    case Unknown => "void"
    case Boolean => "bool"
    case Integer8 => "int8_t"
    case Integer16 => "int16_t"
    case Integer32 => "int32_t"
    case Unsigned8 => "uint8_t"
    case Unsigned16 => "uint16_t"
    case Unsigned32 => "uint32_t"
    case Real32 => "float"
    case VisibleString => "char*"
    case OctetString => "uint8_t*"
    case UnicodeString => "wchar_t*"
    case TimeOfDay => "time_t"
    case TimeDifference => "time_t"
    case Domain => "void*"
    case Integer24 => "int24_t"
    case Real64 => "double"
    case Integer40 => "int40_t"
    case Integer48 => "int48_t"
    case Integer56 => "int56_t"
    case Integer64 => "int64_t"
    case Unsigned24 => "uint24_t"
    case Unsigned40 => "uint40_t"
    case Unsigned48 => "uint48_t"
    case Unsigned56 => "uint56_t"
    case Unsigned64 => "uint64_t"
    case PdoCommunicationParameter => "pdo_comm_param_t"
    case PdoMapping => "pdo_mapping_t"
    case SdoParameter => "sdo_param_t"
    case Identity => "identity_t"
  }

  /** The codes of the enumeration: 0x00 to 0x23 except the gaps. */
  predicate IsMember(n: int) {
    0 <= n <= 0x23 && n != 0x0E && n != 0x17 && !(0x1C <= n <= 0x1F)
  }

  /** What `c_type` returns for an integer: the table entry of the member, or "void". */
  function CTypeOfCode(n: int): (r: string)
    ensures !IsMember(n) ==> r == "void"
    ensures IsMember(n) ==> exists t :: Code(t) == n && r == CName(t)
  {
    MembersAreExactly(n);
    match FromCode(n)
    case Some(t) => CName(t)
    case None => "void"
  }

  /** The three forms in which `c_type` receives a code. */
  datatype TypeArg = IntArg(n: int) | StrArg(s: string) | EnumArg(t: DataType)

  /**
   * `c_type`: None only for a string that does not parse as an integer; an
   * integer gets the C type of that code, and a member its own table name.
   */
  function CType(v: TypeArg): (r: Option<string>)
    ensures r.None? <==> v.StrArg? && Numerals.ParseDecimal(v.s).None?
    ensures v.IntArg? ==> r == Some(CTypeOfCode(v.n))
    ensures v.EnumArg? ==> r == Some(CName(v.t))
  {
    match v
    case StrArg(s) =>
      (match Numerals.ParseDecimal(s)
       case Some(n) => Some(CTypeOfCode(n))
       case None => None)
    case IntArg(n) => Some(CTypeOfCode(n))
    case EnumArg(t) => Some(CName(t))
  }

  /** Every member survives the round trip through its numeric value. */
  lemma CodeRoundTrip(t: DataType)
    ensures FromCode(Code(t)) == Some(t)
  {
  }

  /** The code of a member, passed as an integer, gets that member's table name. */
  lemma CTypeOfMember(t: DataType)
    ensures CTypeOfCode(Code(t)) == CName(t)
    ensures CType(IntArg(Code(t))) == Some(CName(t))
  {
    CodeRoundTrip(t);
  }

  /** The values 0x0E, 0x17 and 0x1C to 0x1F, negative values and values past 0x23 are not members. */
  lemma MembersAreExactly(n: int)
    ensures FromCode(n).Some? <==> IsMember(n)
  {
  }

  /** Each code outside the enumeration falls back to "void". */
  lemma GapsAreVoid(n: int)
    requires n < 0 || n == 0x0E || n == 0x17 || 0x1C <= n <= 0x1F || n > 0x23
    ensures CTypeOfCode(n) == "void"
    ensures CType(IntArg(n)) == Some("void")
  {
    MembersAreExactly(n);
  }

  /** TIME_OF_DAY and TIME_DIFFERENCE share "time_t": the table is not injective. */
  lemma TimeTypesShareName()
    ensures TimeOfDay != TimeDifference && CName(TimeOfDay) == CName(TimeDifference) == "time_t"
    ensures Code(TimeOfDay) != Code(TimeDifference)
    ensures CTypeOfCode(Code(TimeOfDay)) == CTypeOfCode(Code(TimeDifference))
  {
    CodeRoundTrip(TimeOfDay);
    CodeRoundTrip(TimeDifference);
  }

  /** A few entries of the table. */
  lemma TableSamples()
    ensures CType(IntArg(7)) == Some("uint32_t")
    ensures CType(IntArg(9)) == Some("char*")
    ensures CType(IntArg(0x1B)) == Some("uint64_t")
    ensures CType(IntArg(0x23)) == Some("identity_t")
    ensures CType(IntArg(0x0E)) == Some("void")
    ensures CType(StrArg("7")) == Some("uint32_t")
    ensures CType(StrArg("abc")) == None
  {
    assert Numerals.IsNumeral("7", 10);
    assert !Numerals.IsDigit('a', 10);
  }

  /** Any string that parses as an integer, leading zeros or "-0" included, behaves exactly like it. */
  lemma StringParsesLikeInt(s: string, n: int)
    requires Numerals.ParseDecimal(s) == Some(n)
    ensures CType(StrArg(s)) == CType(IntArg(n))
  {
  }

  /** In particular the decimal text of any integer behaves exactly like the integer. */
  lemma StringLikeInt(n: int)
    ensures CType(StrArg(Numerals.IntToDecimal(n))) == CType(IntArg(n))
  {
    Numerals.DecimalRoundTrip(n);
    StringParsesLikeInt(Numerals.IntToDecimal(n), n);
  }

  lemma LeadingZerosSample()
    ensures CType(StrArg("007")) == CType(IntArg(7)) == Some("uint32_t")
    ensures CType(StrArg("-0")) == CType(IntArg(0)) == Some("void")
  {
    assert Numerals.IsNumeral("007", 10) && Numerals.IsNumeral("0", 10);
    assert "007"[..2] == "00" && "00"[..1] == "0" && "0"[..0] == [];
    assert Numerals.ValueOf("0", 10) == 0;
    assert Numerals.ValueOf("00", 10) == 0;
    assert Numerals.ValueOf("007", 10) == 7;
    assert "-0"[1..] == "0";
    StringParsesLikeInt("007", 7);
    StringParsesLikeInt("-0", 0);
  }

  /** An enumeration member behaves exactly like its numeric value. */
  lemma EnumLikeInt(t: DataType)
    ensures CType(EnumArg(t)) == CType(IntArg(Code(t)))
  {
    CodeRoundTrip(t);
  }
}

=== FILE: dictionary.dfy ===
/**
 * The object dictionary as the external provider hands it to the generator.
 * Entries are read, never changed.
 */
module Dictionary {
  import Values
  import DataTypes

  /**
   * A leaf object: a top-level variable or one sub-entry of a record or
   * array. `dataType` is the raw code from the configuration file, which
   * need not be a member of the enumeration.
   */
  datatype Var = Var(
    index: nat,
    subindex: nat,
    name: string,
    dataType: int,
    accessType: string,
    value: Values.Value)

  /** The three kinds of dictionary objects; sub-entries are in iteration order. */
  datatype Entry =
    | Variable(v: Var)
    | Record(index: nat, name: string, members: seq<Var>)
    | Array(index: nat, name: string, members: seq<Var>)

  /** The index of an entry, whatever its kind. */
  function EntryIndex(e: Entry): nat {
    match e
    case Variable(v) => v.index
    case Record(index, _, _) => index
    case Array(index, _, _) => index
  }

  /** The name of an entry, whatever its kind. */
  function EntryName(e: Entry): string {
    match e
    case Variable(v) => v.name
    case Record(_, name, _) => name
    case Array(_, name, _) => name
  }

  /** Sub-entries the record and array passes visit: all but the first in iteration order. */
  function SkipFirst(ms: seq<Var>): (r: seq<Var>)
    ensures |r| == if |ms| == 0 then 0 else |ms| - 1
    ensures forall j :: 0 <= j < |r| ==> r[j] == ms[j + 1]
  {
    if |ms| == 0 then [] else ms[1..]
  }

  predicate AllMemberCodes(ms: seq<Var>) {
    forall j :: 0 <= j < |ms| ==> DataTypes.IsMember(ms[j].dataType)
  }

  /**
   * What the generator needs of an entry to run through: `str_size` raises on
   * a code outside the enumeration, and it is applied to a variable and to
   * every visited sub-entry.
   */
  predicate Emittable(e: Entry) {
    match e
    case Variable(v) => DataTypes.IsMember(v.dataType)
    case Record(_, _, ms) => AllMemberCodes(SkipFirst(ms))
    case Array(_, _, ms) => AllMemberCodes(SkipFirst(ms))
  }

  /** The sub-entries with a subindex other than 0, in order. */
  function NonMetadata(ms: seq<Var>): seq<Var> {
    if ms == [] then []
    else if ms[0].subindex == 0 then NonMetadata(ms[1..])
    else [ms[0]] + NonMetadata(ms[1..])
  }

  predicate StrictlyIncreasing(ms: seq<Var>) {
    forall i, j :: 0 <= i < j < |ms| ==> ms[i].subindex < ms[j].subindex
  }

  /**
   * Skipping by position agrees with skipping subindex 0 when the sub-entries
   * come in increasing subindex order and the first one has subindex 0.
   */
  lemma {:induction false} SkipFirstIsMetadataSkip(ms: seq<Var>)
    requires StrictlyIncreasing(ms) && |ms| > 0 && ms[0].subindex == 0
    ensures SkipFirst(ms) == NonMetadata(ms)
  {
    NoMetadataAfterFirst(ms[1..]);
  }

  lemma {:induction false} NoMetadataAfterFirst(ms: seq<Var>)
    requires forall j :: 0 <= j < |ms| ==> ms[j].subindex != 0
    ensures NonMetadata(ms) == ms
    decreases |ms|
  {
    if ms != [] {
      NoMetadataAfterFirst(ms[1..]);
    }
  }

  /** When no sub-entry has subindex 0, the positional skip drops a real sub-entry. */
  lemma SkipFirstDropsDataWithoutMetadata(m1: Var, m2: Var)
    requires m1.subindex == 1 && m2.subindex == 2
    ensures SkipFirst([m1, m2]) == [m2]
    ensures NonMetadata([m1, m2]) == [m1, m2]
  {
    assert [m1, m2][1..] == [m2];
    assert [m2][1..] == [];
    assert NonMetadata([m2]) == [m2] + NonMetadata([]);
  }

  /** Visiting one more position of the iteration adds that sub-entry at the end. */
  lemma SkipFirstSnoc(ms: seq<Var>, i: nat)
    requires 0 < i < |ms|
    ensures SkipFirst(ms[..i + 1]) == SkipFirst(ms[..i]) + [ms[i]]
  {
    assert ms[..i + 1][1..] == ms[..i][1..] + [ms[i]];
  }
}

=== FILE: emitter.dfy ===
/**
 * What `write_object_to_header` and its three sub-entry helpers emit, as
 * functions from an entry to the lines it adds to the header. Every write of
 * the generator ends in a newline, so a write is the list of lines it holds.
 */
module Emitter {
  import opened Numerals
  import opened Sanitize
  import opened Values
  import opened DataTypes
  import opened Dictionary

  /** Concatenation of blocks of lines, in order. */
  function Flatten(bs: seq<seq<string>>): seq<string> {
    if bs == [] then [] else Flatten(bs[..|bs| - 1]) + bs[|bs| - 1]
  }

  /** Where the `j`-th block of size `k` starts. */
  function Offset(k: nat, j: nat): nat {
    k * j
  }

  lemma AppendAssoc(a: seq<string>, b: seq<string>, c: seq<string>)
    ensures a + b + c == a + (b + c)
  {
  }

  /** Blocks of a common size `k` sit at the multiples of `k`. */
  lemma {:induction false} FlattenUniform(bs: seq<seq<string>>, k: nat)
    requires forall j :: 0 <= j < |bs| ==> |bs[j]| == k
    ensures |Flatten(bs)| == k * |bs|
    ensures forall j :: 0 <= j < |bs| ==> Offset(k, j) + k <= |Flatten(bs)|
    ensures forall j :: 0 <= j < |bs| ==> Flatten(bs)[Offset(k, j)..Offset(k, j) + k] == bs[j]
    decreases |bs|
  {
    if bs != [] {
      var n := |bs| - 1;
      var front := bs[..n];
      FlattenUniform(front, k);
      assert Flatten(bs) == Flatten(front) + bs[n];
      assert k * n + k == k * |bs|;
      forall j | 0 <= j < |bs|
        ensures Offset(k, j) + k <= |Flatten(bs)|
        ensures Flatten(bs)[Offset(k, j)..Offset(k, j) + k] == bs[j]
      {
        assert k * (j + 1) == k * j + k;
        if j < n {
          MulMono(k, j + 1, n);
          assert Flatten(bs)[k * j..k * j + k] == Flatten(front)[k * j..k * j + k];
          assert front[j] == bs[j];
        } else {
          assert k * j == k * n;
        }
      }
    }
  }

  /** `{index:04X}` in an f-string: the index as four upper-case hex digits. */
  function Hex4(index: nat): string {
    Hex(index, 4)
  }

  /** An index below 0x10000 is written as exactly four hex digits that denote it. */
  lemma Hex4Exact(index: nat)
    requires index < 0x10000
    ensures |Hex4(index)| == 4
    ensures IsNumeral(Hex4(index), 16) && ValueOf(Hex4(index), 16) == index
  {
    assert Pow(16, 4) == 0x10000;
    DigitsBound(index, 16, 4);
    HexRoundTrip(index, 4);
  }

  /** `{subindex}` in an f-string. */
  function Dec(n: nat): string {
    IntToDecimal(n)
  }

  /** The access tags that let the fill function assign a field: "RW" and "WO", in any case. */
  predicate IsWritable(access: string) {
    StrToDefine(access) == "RW" || StrToDefine(access) == "WO"
  }

  /** The struct field of a sub-entry: `s<subindex>_<str_low(name)>`. */
  function FieldName(m: Var): string {
    "s" + Dec(m.subindex) + "_" + StrLow(m.name)
  }

  /** The macro prefix of a sub-entry: `<DEVICE>_<IDX4>_<subindex>`. */
  function SubMacro(dev: string, index: nat, m: Var): string {
    StrToDefine(dev) + "_" + Hex4(index) + "_" + Dec(m.subindex)
  }

  /** Lines of `write_subobject_to_header`. */
  function SubobjectLines(dev: string, index: nat, m: Var): (r: seq<string>)
    requires IsMember(m.dataType)
    ensures |r| == 6
  {
    var p := "#define " + SubMacro(dev, index, m);
    [ "/* " + m.name + " */",
      p + "_DESCRIPTION  " + Quoted(m.name),
      p + "_SUBINDEX     " + Dec(m.subindex),
      p + "_DATA_TYPE    " + CTypeOfCode(m.dataType),
      p + "_SIZE         " + StrSize(m.dataType, m.value),
      p + "_DATA_VALUE   " + FormatValue(m.value) ]
  }

  /** The field declaration a sub-entry contributes to the struct. */
  function FieldDecl(m: Var): string {
    "    " + CTypeOfCode(m.dataType) + " " + FieldName(m) + ";"
  }

  /** Lines of `write_subobject_structure`. */
  function StructureLines(index: nat, m: Var): (r: seq<string>)
    ensures |r| == 2 && r[1] == FieldDecl(m)
    ensures r[0] == "    /* " + m.name + ": " + StrToDefine(m.accessType) + " access. (Index " + Hex4(index)
      + ": subindex " + Dec(m.subindex) + ") */"
  {
    [ "    /* " + m.name + ": " + StrToDefine(m.accessType) + " access. (Index " + Hex4(index)
        + ": subindex " + Dec(m.subindex) + ") */",
      FieldDecl(m) ]
  }

  /**
   * The line of `write_subobject_fill_function_assignations`: an assignment
   * exactly when the access tag is writable, and then the assignment of the
   * sub-entry's field from its own DATA_VALUE macro; otherwise a comment that
   * cannot close early and so cannot hide an assignment.
   */
  function FillLine(dev: string, index: nat, m: Var): (r: string)
    ensures IsAssignment(r) <==> IsWritable(m.accessType)
    ensures IsWritable(m.accessType) ==> r == "    p->" + FieldName(m) + " = " + SubMacro(dev, index, m) + "_DATA_VALUE;"
    ensures !IsWritable(m.accessType) ==> IsPlainComment(r)
  {
    if IsWritable(m.accessType) then
      AssignmentShape("    p->", Assignment(dev, index, m));
      "    p->" + Assignment(dev, index, m)
    else
      SkipNoteStarFree(m);
      CommentShape(SkipNote(m));
      "    /* " + SkipNote(m) + " */"
  }

  /** The assignment of a writable field from its DATA_VALUE macro, after `p->`. */
  function Assignment(dev: string, index: nat, m: Var): string {
    FieldName(m) + " = " + SubMacro(dev, index, m) + "_DATA_VALUE;"
  }

  /** The text of the comment left for a field that is not writable. */
  function SkipNote(m: Var): string {
    "Nothing to set for " + FieldName(m) + " as it's a " + StrToDefine(m.accessType) + " member."
  }

  function MacroBlocks(dev: string, index: nat, vs: seq<Var>): (r: seq<seq<string>>)
    requires AllMemberCodes(vs)
    ensures |r| == |vs| && forall j :: 0 <= j < |vs| ==> r[j] == SubobjectLines(dev, index, vs[j])
  {
    seq(|vs|, j requires 0 <= j < |vs| => SubobjectLines(dev, index, vs[j]))
  }

  function StructBlocks(index: nat, vs: seq<Var>): (r: seq<seq<string>>)
    ensures |r| == |vs| && forall j :: 0 <= j < |vs| ==> r[j] == StructureLines(index, vs[j])
  {
    seq(|vs|, j requires 0 <= j < |vs| => StructureLines(index, vs[j]))
  }

  function FillBlocks(dev: string, index: nat, vs: seq<Var>): (r: seq<seq<string>>)
    ensures |r| == |vs| && forall j :: 0 <= j < |vs| ==> r[j] == [FillLine(dev, index, vs[j])]
  {
    seq(|vs|, j requires 0 <= j < |vs| => [FillLine(dev, index, vs[j])])
  }

  /** The macro pass over the visited sub-entries. */
  function MacroPass(dev: string, index: nat, vs: seq<Var>): seq<string>
    requires AllMemberCodes(vs)
  {
    Flatten(MacroBlocks(dev, index, vs))
  }

  /** The struct pass over the visited sub-entries. */
  function StructPass(index: nat, vs: seq<Var>): seq<string> {
    Flatten(StructBlocks(index, vs))
  }

  /** The fill pass over the visited sub-entries. */
  function FillPass(dev: string, index: nat, vs: seq<Var>): seq<string> {
    Flatten(FillBlocks(dev, index, vs))
  }

  /** `<dev>_<IDX4>_<name>` in identifier case: the struct tag. */
  function StructName(dev: string, index: nat, name: string): string {
    StrLow(dev) + "_" + Hex4(index) + "_" + StrLow(name)
  }

  /** The comment and the opening line of a fill function. */
  function FillHead(dev: string, index: nat, name: string): (r: seq<string>)
    ensures |r| == 4
    ensures r[3] == "static inline void " + StrLow(dev) + "_" + Hex4(index) + "_fill_with_default(struct "
      + StructName(dev, index, name) + "* p) {"
  {
    var s := StructName(dev, index, name);
    [ "",
      "/* Inline function to fill the structure " + s,
      " * with the default writeable values from the DCF file. */",
      "static inline void " + StrLow(dev) + "_" + Hex4(index) + "_fill_with_default(struct " + s + "* p) {" ]
  }

  /** The kind of an entry as the object comment names it. */
  function KindName(e: Entry): string {
    match e
    case Variable(_) => "Variable"
    case Record(_, _, _) => "Record"
    case Array(_, _, _) => "Array"
  }

  /** The comment that opens every entry's block: Object 0x<IDX4> (<kind>): <name>. */
  function ObjectComment(kind: string, index: nat, name: string): string {
    "/* Object 0x" + Hex4(index) + " (" + kind + "): " + name + " */"
  }

  /** The first three lines of a record or array: comment, INDEX and DESCRIPTION macros. */
  function CompositeHead(dev: string, e: Entry): (r: seq<string>)
    requires e.Record? || e.Array?
    ensures |r| == 3 && r[0] == ObjectComment(KindName(e), e.index, e.name)
    ensures r[1] == "#define " + StrToDefine(dev) + "_" + StrToDefine(e.name)
      + (if e.Record? then "_INDEX  " else "_INDEX   ") + FormatValue(Int(e.index))
    ensures r[2] == "#define " + StrToDefine(dev) + "_" + Hex4(e.index)
      + (if e.Record? then "_DESCRIPTION      " else "_DESCRIPTION       ") + Quoted(e.name)
  {
    var h := Hex4(e.index);
    [ ObjectComment(KindName(e), e.index, e.name),
      "#define " + StrToDefine(dev) + "_" + StrToDefine(e.name)
        + (if e.Record? then "_INDEX  " else "_INDEX   ") + FormatValue(Int(e.index)),
      "#define " + StrToDefine(dev) + "_" + h
        + (if e.Record? then "_DESCRIPTION      " else "_DESCRIPTION       ") + Quoted(e.name) ]
  }

  /** The comment and opening line of a record's or array's struct. */
  function StructOpen(dev: string, e: Entry): (r: seq<string>)
    requires e.Record? || e.Array?
    ensures |r| == 3 && r[2] == "struct " + StructName(dev, e.index, e.name) + " {"
  {
    [ "",
      "/* Represents " + (if e.Record? then "record" else "array") + " at index 0x" + Hex4(e.index) + " */",
      "struct " + StructName(dev, e.index, e.name) + " {" ]
  }

  /**
   * What the Record and Array branches emit: twelve fixed lines and nine per
   * visited sub-entry (six macros, a comment and a field, a fill line).
   */
  function CompositeLines(dev: string, e: Entry): (r: seq<string>)
    requires (e.Record? || e.Array?) && Emittable(e)
    ensures |r| == 12 + 9 * |SkipFirst(e.members)|
    ensures r[0] == ObjectComment(KindName(e), e.index, e.name) && r[|r| - 1] == "}"
  {
    var vs := SkipFirst(e.members);
    PassLengths(dev, e.index, vs);
    CompositeHead(dev, e)
    + MacroPass(dev, e.index, vs)
    + StructOpen(dev, e)
    + StructPass(e.index, vs)
    + ["};"]
    + FillHead(dev, e.index, e.name)
    + FillPass(dev, e.index, vs)
    + ["}"]
  }

  /** `<DEVICE>_<IDX4>_DATA_VALUE`: the macro holding a variable's default. */
  function DataValueMacro(dev: string, index: nat): string {
    StrToDefine(dev) + "_" + Hex4(index) + "_DATA_VALUE"
  }

  /** The six macros of a variable and the comment before them. */
  function VariableMacros(dev: string, v: Var): (r: seq<string>)
    requires IsMember(v.dataType)
    ensures |r| == 7 && r[0] == ObjectComment("Variable", v.index, v.name)
    ensures r[6] == "#define " + DataValueMacro(dev, v.index) + "         " + FormatValue(v.value)
  {
    var h := Hex4(v.index);
    var d := "#define " + StrToDefine(dev) + "_" + StrToDefine(v.name);
    var x := "#define " + StrToDefine(dev) + "_" + h;
    [ ObjectComment("Variable", v.index, v.name),
      d + "_INDEX    " + FormatValue(Int(v.index)),
      d + "_SUBINDEX " + Dec(v.subindex),
      d + "_SIZE     " + StrSize(v.dataType, v.value),
      x + "_DESCRIPTION        " + Quoted(v.name),
      x + "_DATA_TYPE          " + CTypeOfCode(v.dataType),
      "#define " + DataValueMacro(dev, v.index) + "         " + FormatValue(v.value) ]
  }

  /** A variable's INDEX macro holds its formatted index. */
  lemma VariableIndex(dev: string, v: Var)
    requires IsMember(v.dataType)
    ensures VariableMacros(dev, v)[1] == "#define " + StrToDefine(dev) + "_" + StrToDefine(v.name) + "_INDEX    " + FormatValue(Int(v.index))
  {
  }

  /** A variable's SUBINDEX macro holds its subindex in decimal. */
  lemma VariableSubindex(dev: string, v: Var)
    requires IsMember(v.dataType)
    ensures VariableMacros(dev, v)[2] == "#define " + StrToDefine(dev) + "_" + StrToDefine(v.name) + "_SUBINDEX " + Dec(v.subindex)
  {
  }

  /** A variable's DESCRIPTION macro holds its name as a string literal. */
  lemma VariableDescription(dev: string, v: Var)
    requires IsMember(v.dataType)
    ensures VariableMacros(dev, v)[4] == "#define " + StrToDefine(dev) + "_" + Hex4(v.index) + "_DESCRIPTION        " + Quoted(v.name)
  {
  }

  /** A variable's SIZE macro holds its `str_size`. */
  lemma VariableSize(dev: string, v: Var)
    requires IsMember(v.dataType)
    ensures VariableMacros(dev, v)[3] == "#define " + StrToDefine(dev) + "_" + StrToDefine(v.name) + "_SIZE     " + StrSize(v.dataType, v.value)
  {
  }

  /** A variable's DATA_TYPE macro names its C type. */
  lemma VariableType(dev: string, v: Var)
    requires IsMember(v.dataType)
    ensures VariableMacros(dev, v)[5] == "#define " + StrToDefine(dev) + "_" + Hex4(v.index) + "_DATA_TYPE          " + CTypeOfCode(v.dataType)
  {
  }

  /** The one-field struct of a variable. */
  function VariableStruct(dev: string, v: Var): (r: seq<string>)
    ensures |r| == 6 && r[4] == "    " + CTypeOfCode(v.dataType) + " value;"
    ensures r[2] == "struct " + StructName(dev, v.index, v.name) + " {"
    ensures r[3] == "    /* " + v.name + ": " + StrToDefine(v.accessType) + " access. */"
  {
    [ "",
      "/* Represents variable at index 0x" + Hex4(v.index) + " */",
      "struct " + StructName(dev, v.index, v.name) + " {",
      "    /* " + v.name + ": " + StrToDefine(v.accessType) + " access. */",
      "    " + CTypeOfCode(v.dataType) + " value;",
      "};" ]
  }

  /** The only statement of a variable's fill function. */
  function VariableFill(dev: string, v: Var): string {
    "    p->value = " + DataValueMacro(dev, v.index) + ";"
  }

  /**
   * What the Variable branch emits: nineteen lines, whose fill function
   * assigns `p->value` from the very DATA_VALUE macro the seventh line
   * defines, and then closes.
   */
  function VariableLines(dev: string, v: Var): (r: seq<string>)
    requires IsMember(v.dataType)
    ensures |r| == 19 && r[0] == ObjectComment("Variable", v.index, v.name)
    ensures r[1] == "#define " + StrToDefine(dev) + "_" + StrToDefine(v.name) + "_INDEX    " + FormatValue(Int(v.index))
    ensures r[2] == "#define " + StrToDefine(dev) + "_" + StrToDefine(v.name) + "_SUBINDEX " + Dec(v.subindex)
    ensures r[3] == "#define " + StrToDefine(dev) + "_" + StrToDefine(v.name) + "_SIZE     " + StrSize(v.dataType, v.value)
    ensures r[4] == "#define " + StrToDefine(dev) + "_" + Hex4(v.index) + "_DESCRIPTION        " + Quoted(v.name)
    ensures r[5] == "#define " + StrToDefine(dev) + "_" + Hex4(v.index) + "_DATA_TYPE          " + CTypeOfCode(v.dataType)
    ensures r[6] == "#define " + DataValueMacro(dev, v.index) + "         " + FormatValue(v.value)
    ensures r[9] == "struct " + StructName(dev, v.index, v.name) + " {"
    ensures r[10] == "    /* " + v.name + ": " + StrToDefine(v.accessType) + " access. */"
    ensures r[11] == "    " + CTypeOfCode(v.dataType) + " value;"
    ensures r[16] == "static inline void " + StrLow(dev) + "_" + Hex4(v.index) + "_fill_with_default(struct "
      + StructName(dev, v.index, v.name) + "* p) {"
    ensures r[17] == "    p->value = " + DataValueMacro(dev, v.index) + ";" && r[18] == "}"
  {
    var ms, st, fh, tl := VariableMacros(dev, v), VariableStruct(dev, v), FillHead(dev, v.index, v.name), [VariableFill(dev, v), "}"];
    VariableIndex(dev, v);
    VariableSubindex(dev, v);
    VariableDescription(dev, v);
    VariableSize(dev, v);
    VariableType(dev, v);
    VariablePieces(ms, st, fh, tl);
    ms + st + fh + tl
  }

  /** Where the lines of the four pieces of a variable's block end up. */
  lemma VariablePieces(ms: seq<string>, st: seq<string>, fh: seq<string>, tl: seq<string>)
    requires |ms| == 7 && |st| == 6 && |fh| == 4 && |tl| == 2
    ensures var r := ms + st + fh + tl;
      |r| == 19 && r[0] == ms[0] && r[1] == ms[1] && r[2] == ms[2] && r[3] == ms[3] && r[4] == ms[4] &&
      r[5] == ms[5] && r[6] == ms[6] && r[9] == st[2] && r[10] == st[3] && r[11] == st[4] &&
      r[16] == fh[3] && r[17] == tl[0] && r[18] == tl[1]
  {
  }

  /**
   * The lines of the branch of `write_object_to_header` for the entry's kind:
   * at least twelve, opening with the object comment that names the entry's
   * index, kind and name, and closing the fill function.
   */
  function EntryLines(dev: string, e: Entry): (r: seq<string>)
    requires Emittable(e)
    ensures |r| >= 12
    ensures r[0] == ObjectComment(KindName(e), EntryIndex(e), EntryName(e))
    ensures r[|r| - 1] == "}"
  {
    match e
    case Variable(v) => VariableLines(dev, v)
    case Record(_, _, _) => CompositeLines(dev, e)
    case Array(_, _, _) => CompositeLines(dev, e)
  }

  /**
   * `write_object_to_header`: a block that opens with the entry's object
   * comment and ends with the closing brace of its fill function and a blank
   * line.
   */
  function ObjectLines(dev: string, e: Entry): (r: seq<string>)
    requires Emittable(e)
    ensures |r| >= 13
    ensures r[0] == ObjectComment(KindName(e), EntryIndex(e), EntryName(e))
    ensures r[|r| - 2] == "}" && r[|r| - 1] == ""
  {
    var b := EntryLines(dev, e);
    BlankAfter(b);
    b + [""]
  }

  /** A block followed by a blank line keeps its first and last lines in place. */
  lemma BlankAfter(b: seq<string>)
    requires |b| >= 12
    ensures var r := b + [""];
      |r| == |b| + 1 && r[0] == b[0] && r[|r| - 2] == b[|b| - 1] && r[|r| - 1] == ""
  {
  }

  // ---------------------------------------------------------------------------
  // Properties of the emitted text
  // ---------------------------------------------------------------------------

  /** A line that assigns a struct member through the fill function's pointer. */
  predicate IsAssignment(line: string) {
    |line| >= 7 && line[..7] == "    p->"
  }

  predicate StarFree(s: string) {
    forall k :: 0 <= k < |s| ==> s[k] != '*'
  }

  lemma StarFreeConcat(a: string, b: string)
    requires StarFree(a) && StarFree(b)
    ensures StarFree(a + b)
  {
    forall k | 0 <= k < |a + b| ensures (a + b)[k] != '*' {
      if k >= |a| { assert (a + b)[k] == b[k - |a|]; }
    }
  }

  /**
   * A whole-line C comment that cannot close early: it opens and ends with
   * the comment delimiters and holds no '*' in between.
   */
  predicate IsPlainComment(line: string) {
    |line| >= 10 && line[..7] == "    /* " && line[|line| - 3..] == " */" && StarFree(line[7..|line| - 3])
  }

  /** Writable exactly for the two-letter tags rw and wo, in any case. */
  lemma WritableIff(a: string)
    ensures IsWritable(a) <==>
      |a| == 2 && ((ToUpper(a[0]) == 'R' && ToUpper(a[1]) == 'W') || (ToUpper(a[0]) == 'W' && ToUpper(a[1]) == 'O'))
  {
    var u := StrToDefine(a);
    if |a| == 2 {
      assert u == [u[0], u[1]];
      if !IsAlnum(a[0]) { assert u[0] == '_'; }
      if !IsAlnum(a[1]) { assert u[1] == '_'; }
    }
  }

  lemma WritableSamples()
    ensures IsWritable("rw") && IsWritable("RW") && IsWritable("wo") && IsWritable("Wo")
    ensures !IsWritable("ro") && !IsWritable("const") && !IsWritable("rww") && !IsWritable("r_w")
  {
    WritableIff("rw"); WritableIff("RW"); WritableIff("wo"); WritableIff("Wo");
    WritableIff("ro"); WritableIff("const"); WritableIff("rww"); WritableIff("r_w");
  }

  /** No sanitised token and no decimal numeral contains '*'. */
  lemma NoStar(m: Var)
    ensures StarFree(FieldName(m))
    ensures StarFree(StrToDefine(m.accessType))
  {
    var d := Dec(m.subindex);
    DigitsRoundTrip(m.subindex, 10);
    assert d == Digits(m.subindex, 10);
    assert StarFree(d) by {
      forall k | 0 <= k < |d| ensures d[k] != '*' { assert IsDigit(d[k], 10); }
    }
    var low := StrLow(m.name);
    assert StarFree(low) by {
      forall k | 0 <= k < |low| ensures low[k] != '*' { assert IsLowToken(low[k]); }
    }
    var up := StrToDefine(m.accessType);
    assert StarFree(up) by {
      forall k | 0 <= k < |up| ensures up[k] != '*' { assert IsDefineToken(up[k]); }
    }
    StarFreeConcat("s", d);
    StarFreeConcat("s" + d, "_");
    StarFreeConcat("s" + d + "_", low);
  }

  /** The note left for a field that is not writable holds no '*'. */
  lemma SkipNoteStarFree(m: Var)
    ensures StarFree(SkipNote(m))
  {
    NoStar(m);
    var f, a := FieldName(m), StrToDefine(m.accessType);
    StarFreeConcat("Nothing to set for ", f);
    StarFreeConcat("Nothing to set for " + f, " as it's a ");
    StarFreeConcat("Nothing to set for " + f + " as it's a ", a);
    StarFreeConcat("Nothing to set for " + f + " as it's a " + a, " member.");
  }

  lemma AssignmentShape(p: string, rest: string)
    requires p == "    p->"
    ensures IsAssignment(p + rest)
  {
    assert (p + rest)[..7] == p;
  }

  lemma CommentShape(body: string)
    requires StarFree(body)
    ensures IsPlainComment("    /* " + body + " */")
    ensures !IsAssignment("    /* " + body + " */")
  {
    var line := "    /* " + body + " */";
    assert line[..7] == "    /* ";
    assert line[7..|line| - 3] == body;
    assert line[|line| - 3..] == " */";
    assert line[4] == '/';
  }

  /** Each pass has one fixed-size block per visited sub-entry, in the order given. */
  lemma MacroPassShape(dev: string, index: nat, vs: seq<Var>)
    requires AllMemberCodes(vs)
    ensures |MacroPass(dev, index, vs)| == 6 * |vs|
    ensures forall j :: 0 <= j < |vs| ==>
      MacroPass(dev, index, vs)[6 * j..6 * j + 6] == SubobjectLines(dev, index, vs[j])
  {
    FlattenUniform(MacroBlocks(dev, index, vs), 6);
  }

  lemma StructPassShape(index: nat, vs: seq<Var>)
    ensures |StructPass(index, vs)| == 2 * |vs|
    ensures forall j :: 0 <= j < |vs| ==>
      StructPass(index, vs)[2 * j..2 * j + 2] == StructureLines(index, vs[j])
  {
    FlattenUniform(StructBlocks(index, vs), 2);
  }

  lemma FillPassShape(dev: string, index: nat, vs: seq<Var>)
    ensures |FillPass(dev, index, vs)| == |vs|
    ensures forall j :: 0 <= j < |vs| ==> FillPass(dev, index, vs)[j] == FillLine(dev, index, vs[j])
  {
    var bs := FillBlocks(dev, index, vs);
    FlattenUniform(bs, 1);
    var fp := Flatten(bs);
    forall j | 0 <= j < |vs| ensures fp[j] == FillLine(dev, index, vs[j]) {
      assert fp[j] == fp[1 * j..1 * j + 1][0];
      assert bs[j][0] == FillLine(dev, index, vs[j]);
    }
  }

  /** The three passes have 6, 2 and 1 lines per visited sub-entry. */
  lemma PassLengths(dev: string, index: nat, vs: seq<Var>)
    requires AllMemberCodes(vs)
    ensures |MacroPass(dev, index, vs)| == 6 * |vs|
    ensures |StructPass(index, vs)| == 2 * |vs|
    ensures |FillPass(dev, index, vs)| == |vs|
  {
    MacroPassShape(dev, index, vs);
    StructPassShape(index, vs);
    FillPassShape(dev, index, vs);
  }

  /** The j-th field of the struct is declared for the j-th visited sub-entry. */
  lemma StructFieldsInOrder(index: nat, vs: seq<Var>)
    ensures |StructPass(index, vs)| == 2 * |vs|
    ensures forall j :: 0 <= j < |vs| ==> StructPass(index, vs)[2 * j + 1] == FieldDecl(vs[j])
  {
    StructPassShape(index, vs);
    var sp := StructPass(index, vs);
    forall j | 0 <= j < |vs| ensures sp[2 * j + 1] == FieldDecl(vs[j]) {
      assert sp[2 * j + 1] == sp[2 * j..2 * j + 2][1];
    }
  }

  /** The j-th DATA_VALUE macro is defined for the j-th visited sub-entry. */
  lemma MacroValuesInOrder(dev: string, index: nat, vs: seq<Var>)
    requires AllMemberCodes(vs)
    ensures |MacroPass(dev, index, vs)| == 6 * |vs|
    ensures forall j :: 0 <= j < |vs| ==>
      MacroPass(dev, index, vs)[6 * j + 5] == "#define " + SubMacro(dev, index, vs[j]) + "_DATA_VALUE   " + FormatValue(vs[j].value)
  {
    MacroPassShape(dev, index, vs);
    var mp := MacroPass(dev, index, vs);
    forall j | 0 <= j < |vs|
      ensures mp[6 * j + 5] == "#define " + SubMacro(dev, index, vs[j]) + "_DATA_VALUE   " + FormatValue(vs[j].value)
    {
      assert mp[6 * j + 5] == mp[6 * j..6 * j + 6][5];
    }
  }

  /**
   * A sub-entry's block opens with a comment holding its name, then its
   * DESCRIPTION macro holds the name as a string literal and its SUBINDEX
   * macro the subindex in decimal.
   */
  lemma SubobjectIdentity(dev: string, index: nat, m: Var)
    requires IsMember(m.dataType)
    ensures SubobjectLines(dev, index, m)[0] == "/* " + m.name + " */"
    ensures SubobjectLines(dev, index, m)[1] == "#define " + SubMacro(dev, index, m) + "_DESCRIPTION  " + Quoted(m.name)
    ensures SubobjectLines(dev, index, m)[2] == "#define " + SubMacro(dev, index, m) + "_SUBINDEX     " + Dec(m.subindex)
  {
  }

  /** A sub-entry's DATA_TYPE macro names its C type and its SIZE macro holds its `str_size`. */
  lemma SubobjectTypeAndSize(dev: string, index: nat, m: Var)
    requires IsMember(m.dataType)
    ensures SubobjectLines(dev, index, m)[3] == "#define " + SubMacro(dev, index, m) + "_DATA_TYPE    " + CTypeOfCode(m.dataType)
    ensures SubobjectLines(dev, index, m)[4] == "#define " + SubMacro(dev, index, m) + "_SIZE         " + StrSize(m.dataType, m.value)
  {
  }

  /** The j-th DATA_TYPE macro names the C type of the j-th visited sub-entry. */
  lemma MacroTypesInOrder(dev: string, index: nat, vs: seq<Var>)
    requires AllMemberCodes(vs)
    ensures |MacroPass(dev, index, vs)| == 6 * |vs|
    ensures forall j :: 0 <= j < |vs| ==>
      MacroPass(dev, index, vs)[6 * j + 3] == "#define " + SubMacro(dev, index, vs[j]) + "_DATA_TYPE    " + CTypeOfCode(vs[j].dataType)
  {
    MacroPassShape(dev, index, vs);
    var mp := MacroPass(dev, index, vs);
    forall j | 0 <= j < |vs|
      ensures mp[6 * j + 3] == "#define " + SubMacro(dev, index, vs[j]) + "_DATA_TYPE    " + CTypeOfCode(vs[j].dataType)
    {
      assert mp[6 * j + 3] == mp[6 * j..6 * j + 6][3];
    }
  }

  /** The j-th SIZE macro holds the `str_size` of the j-th visited sub-entry. */
  lemma MacroSizesInOrder(dev: string, index: nat, vs: seq<Var>)
    requires AllMemberCodes(vs)
    ensures |MacroPass(dev, index, vs)| == 6 * |vs|
    ensures forall j :: 0 <= j < |vs| ==>
      MacroPass(dev, index, vs)[6 * j + 4] == "#define " + SubMacro(dev, index, vs[j]) + "_SIZE         " + StrSize(vs[j].dataType, vs[j].value)
  {
    MacroPassShape(dev, index, vs);
    forall j | 0 <= j < |vs|
      ensures MacroPass(dev, index, vs)[6 * j + 4] == "#define " + SubMacro(dev, index, vs[j]) + "_SIZE         " + StrSize(vs[j].dataType, vs[j].value)
    {
      MacroSizeAt(dev, index, vs, j);
    }
  }

  /** The SIZE macro of one visited sub-entry, at its place in the macro pass. */
  lemma MacroSizeAt(dev: string, index: nat, vs: seq<Var>, j: nat)
    requires AllMemberCodes(vs) && j < |vs|
    ensures |MacroPass(dev, index, vs)| == 6 * |vs|
    ensures MacroPass(dev, index, vs)[6 * j + 4] == "#define " + SubMacro(dev, index, vs[j]) + "_SIZE         " + StrSize(vs[j].dataType, vs[j].value)
  {
    MacroPassShape(dev, index, vs);
    var mp := MacroPass(dev, index, vs);
    SubobjectTypeAndSize(dev, index, vs[j]);
    assert mp[6 * j + 4] == mp[6 * j..6 * j + 6][4];
  }

  /**
   * The j-th fill line belongs to the j-th visited sub-entry: it assigns that
   * field from that sub-entry's DATA_VALUE macro exactly when its access tag
   * is writable, and is otherwise a comment that cannot hide an assignment.
   */
  lemma FillLinesInOrder(dev: string, index: nat, vs: seq<Var>)
    ensures |FillPass(dev, index, vs)| == |vs|
    ensures forall j :: 0 <= j < |vs| ==>
      (IsAssignment(FillPass(dev, index, vs)[j]) <==> IsWritable(vs[j].accessType))
    ensures forall j :: 0 <= j < |vs| && IsWritable(vs[j].accessType) ==>
      FillPass(dev, index, vs)[j] == "    p->" + FieldName(vs[j]) + " = " + SubMacro(dev, index, vs[j]) + "_DATA_VALUE;"
    ensures forall j :: 0 <= j < |vs| && !IsWritable(vs[j].accessType) ==>
      IsPlainComment(FillPass(dev, index, vs)[j])
  {
    FillPassShape(dev, index, vs);
  }

  /** Where each of eight consecutive pieces sits in their concatenation. */
  lemma Pieces8(a: seq<string>, b: seq<string>, c: seq<string>, d: seq<string>,
                e: seq<string>, f: seq<string>, g: seq<string>, h: seq<string>)
    ensures var r, p1 := a + b + c + d + e + f + g + h, |a|;
      var p2, p3 := p1 + |b|, p1 + |b| + |c|;
      var p4, p5 := p3 + |d|, p3 + |d| + |e|;
      var p6, p7 := p5 + |f|, p5 + |f| + |g|;
      |r| == p7 + |h| &&
      r[..p1] == a && r[p1..p2] == b && r[p2..p3] == c && r[p3..p4] == d &&
      r[p4..p5] == e && r[p5..p6] == f && r[p6..p7] == g && r[p7..] == h
  {
  }

  /**
   * The layout of a record or array block with `m` visited sub-entries: its
   * head, macro pass, struct opening, struct pass, "};", fill function head,
   * fill pass and "}", at these offsets.
   */
  predicate LaidOut(r: seq<string>, hd: seq<string>, mp: seq<string>, so: seq<string>, sp: seq<string>,
                    fh: seq<string>, fp: seq<string>, m: nat) {
    |r| == 12 + 9 * m &&
    r[..3] == hd && r[3..3 + 6 * m] == mp && r[3 + 6 * m..6 + 6 * m] == so &&
    r[6 + 6 * m..6 + 8 * m] == sp && r[6 + 8 * m] == "};" &&
    r[7 + 8 * m..11 + 8 * m] == fh && r[11 + 8 * m..11 + 9 * m] == fp && r[11 + 9 * m] == "}"
  }

  /** In a laid-out block, the head's lines, the struct's opening line and the fill function's opening line. */
  lemma LaidOutKeyLines(r: seq<string>, hd: seq<string>, mp: seq<string>, so: seq<string>, sp: seq<string>,
                        fh: seq<string>, fp: seq<string>, m: nat)
    requires LaidOut(r, hd, mp, so, sp, fh, fp, m)
    ensures |r| == 12 + 9 * m && r[1] == hd[1] && r[2] == hd[2] && r[5 + 6 * m] == so[2] && r[10 + 8 * m] == fh[3]
  {
    assert r[1] == r[..3][1] && r[2] == r[..3][2];
    assert r[5 + 6 * m] == r[3 + 6 * m..6 + 6 * m][2];
    assert r[10 + 8 * m] == r[7 + 8 * m..11 + 8 * m][3];
  }

  lemma CompositeLayout(r: seq<string>, hd: seq<string>, mp: seq<string>, so: seq<string>, sp: seq<string>,
                        fh: seq<string>, fp: seq<string>, m: nat)
    requires r == hd + mp + so + sp + ["};"] + fh + fp + ["}"]
    requires |hd| == 3 && |mp| == 6 * m && |so| == 3 && |sp| == 2 * m && |fh| == 4 && |fp| == m
    ensures LaidOut(r, hd, mp, so, sp, fh, fp, m)
  {
    Pieces8(hd, mp, so, sp, ["};"], fh, fp, ["}"]);
    assert r[6 + 8 * m..7 + 8 * m] == ["};"];
    assert r[11 + 9 * m..] == ["}"];
  }

  /**
   * A record or array block is laid out as its head (3 lines), the macro pass,
   * the struct opening (3 lines), the struct pass, "};", the fill function's
   * head (4 lines), the fill pass and "}". Each pass visits the k - 1
   * sub-entries after the first (none when there are none).
   */
  lemma CompositeBlock(dev: string, e: Entry)
    requires (e.Record? || e.Array?) && Emittable(e)
    ensures |SkipFirst(e.members)| == if |e.members| == 0 then 0 else |e.members| - 1
    ensures LaidOut(CompositeLines(dev, e), CompositeHead(dev, e), MacroPass(dev, e.index, SkipFirst(e.members)),
      StructOpen(dev, e), StructPass(e.index, SkipFirst(e.members)), FillHead(dev, e.index, e.name),
      FillPass(dev, e.index, SkipFirst(e.members)), |SkipFirst(e.members)|)
  {
    var vs := SkipFirst(e.members);
    PieceLengths(dev, e);
    CompositeLayout(CompositeLines(dev, e), CompositeHead(dev, e), MacroPass(dev, e.index, vs), StructOpen(dev, e),
      StructPass(e.index, vs), FillHead(dev, e.index, e.name), FillPass(dev, e.index, vs), |vs|);
  }

  /** The sizes of the pieces of a record or array block. */
  lemma PieceLengths(dev: string, e: Entry)
    requires (e.Record? || e.Array?) && Emittable(e)
    ensures var vs := SkipFirst(e.members);
      |CompositeHead(dev, e)| == 3 && |MacroPass(dev, e.index, vs)| == 6 * |vs| &&
      |StructOpen(dev, e)| == 3 && |StructPass(e.index, vs)| == 2 * |vs| &&
      |FillHead(dev, e.index, e.name)| == 4 && |FillPass(dev, e.index, vs)| == |vs|
  {
    PassLengths(dev, e.index, SkipFirst(e.members));
  }

  /** A record's or array's block names it by its INDEX and DESCRIPTION macros, after the object comment. */
  lemma CompositeHeadLines(dev: string, e: Entry)
    requires (e.Record? || e.Array?) && Emittable(e)
    ensures var r := CompositeLines(dev, e);
      |r| >= 12 &&
      r[1] == "#define " + StrToDefine(dev) + "_" + StrToDefine(e.name)
        + (if e.Record? then "_INDEX  " else "_INDEX   ") + FormatValue(Int(e.index)) &&
      r[2] == "#define " + StrToDefine(dev) + "_" + Hex4(e.index)
        + (if e.Record? then "_DESCRIPTION      " else "_DESCRIPTION       ") + Quoted(e.name)
  {
    var vs := SkipFirst(e.members);
    CompositeBlock(dev, e);
    LaidOutKeyLines(CompositeLines(dev, e), CompositeHead(dev, e), MacroPass(dev, e.index, vs), StructOpen(dev, e),
      StructPass(e.index, vs), FillHead(dev, e.index, e.name), FillPass(dev, e.index, vs), |vs|);
  }

  /**
   * A record's or array's block declares `struct <StructName>`, and its fill
   * function takes a pointer to that same struct.
   */
  lemma FillTakesDeclaredStruct(dev: string, e: Entry)
    requires (e.Record? || e.Array?) && Emittable(e)
    ensures |CompositeLines(dev, e)| == 12 + 9 * |SkipFirst(e.members)|
    ensures CompositeLines(dev, e)[5 + 6 * |SkipFirst(e.members)|] == "struct " + StructName(dev, e.index, e.name) + " {"
    ensures CompositeLines(dev, e)[10 + 8 * |SkipFirst(e.members)|]
         == "static inline void " + StrLow(dev) + "_" + Hex4(e.index) + "_fill_with_default(struct "
            + StructName(dev, e.index, e.name) + "* p) {"
  {
    var vs := SkipFirst(e.members);
    CompositeBlock(dev, e);
    LaidOutKeyLines(CompositeLines(dev, e), CompositeHead(dev, e), MacroPass(dev, e.index, vs), StructOpen(dev, e),
      StructPass(e.index, vs), FillHead(dev, e.index, e.name), FillPass(dev, e.index, vs), |vs|);
  }

  /**
   * An UNSIGNED32 variable such as the Vendor ID at 0x1018: its DATA_TYPE
   * macro and its one field both name uint32_t, and its SIZE macro is
   * sizeof(uint32_t).
   */
  lemma Unsigned32Sample(dev: string, v: Var)
    requires v.dataType == 7
    ensures CTypeOfCode(v.dataType) == "uint32_t" && StrSize(v.dataType, v.value) == "sizeof(uint32_t)"
    ensures var r := VariableLines(dev, v);
      r[3] == "#define " + StrToDefine(dev) + "_" + StrToDefine(v.name) + "_SIZE     " + "sizeof(uint32_t)" &&
      r[5] == "#define " + StrToDefine(dev) + "_" + Hex4(v.index) + "_DATA_TYPE          " + "uint32_t" &&
      r[11] == "    " + "uint32_t" + " value;"
  {
    assert CTypeOfCode(7) == "uint32_t";
  }

  /**
   * A variable's fill function assigns `p->value` from the variable's
   * DATA_VALUE macro whatever its access tag, unlike a sub-entry's.
   */
  lemma VariableFillAlwaysAssigns(dev: string, v: Var, access: string)
    ensures IsAssignment(VariableFill(dev, v))
    ensures VariableFill(dev, v) == VariableFill(dev, v.(accessType := access))
    ensures VariableFill(dev, v) == "    p->" + "value = " + DataValueMacro(dev, v.index) + ";"
  {
    AssignmentShape("    p->", "value = " + DataValueMacro(dev, v.index) + ";");
  }

  /** One more visited sub-entry appends its six macro lines to the macro pass. */
  lemma MacroPassSnoc(dev: string, index: nat, vs: seq<Var>, v: Var)
    requires AllMemberCodes(vs) && IsMember(v.dataType)
    ensures AllMemberCodes(vs + [v])
    ensures MacroPass(dev, index, vs + [v]) == MacroPass(dev, index, vs) + SubobjectLines(dev, index, v)
  {
    assert forall j :: 0 <= j < |vs| ==> (vs + [v])[j] == vs[j];
    var bs := MacroBlocks(dev, index, vs + [v]);
    assert bs[..|vs|] == MacroBlocks(dev, index, vs);
  }

  /** One more visited sub-entry appends its comment and field to the struct pass. */
  lemma StructPassSnoc(index: nat, vs: seq<Var>, v: Var)
    ensures StructPass(index, vs + [v]) == StructPass(index, vs) + StructureLines(index, v)
  {
    assert forall j :: 0 <= j < |vs| ==> (vs + [v])[j] == vs[j];
    var bs := StructBlocks(index, vs + [v]);
    assert bs[..|vs|] == StructBlocks(index, vs);
  }

  /** One more visited sub-entry appends its line to the fill pass. */
  lemma FillPassSnoc(dev: string, index: nat, vs: seq<Var>, v: Var)
    ensures FillPass(dev, index, vs + [v]) == FillPass(dev, index, vs) + [FillLine(dev, index, v)]
  {
    assert forall j :: 0 <= j < |vs| ==> (vs + [v])[j] == vs[j];
    var bs := FillBlocks(dev, index, vs + [v]);
    assert bs[..|vs|] == FillBlocks(dev, index, vs);
  }
}

=== FILE: header_file.dfy ===
/**
 * The generator as it runs: an output file that receives writes one after
 * the other, and the procedures of the generator that write to it. Each
 * procedure is proved to append exactly the lines the matching function of
 * `Emitter` or `Assembler` describes.
 */
module Output {
  import opened Sanitize
  import opened Values
  import opened DataTypes
  import opened Dictionary
  import opened Emitter
  import opened Assembler

  /** One iteration of the macro pass, past position 0. */
  lemma MacroStep(before: seq<string>, dev: string, index: nat, ms: seq<Var>, i: nat)
    requires 0 < i < |ms| && AllMemberCodes(SkipFirst(ms)) && AllMemberCodes(SkipFirst(ms[..i]))
    ensures IsMember(ms[i].dataType) && AllMemberCodes(SkipFirst(ms[..i + 1]))
    ensures before + MacroPass(dev, index, SkipFirst(ms[..i + 1]))
         == before + MacroPass(dev, index, SkipFirst(ms[..i])) + SubobjectLines(dev, index, ms[i])
  {
    assert SkipFirst(ms)[i - 1] == ms[i];
    SkipFirstSnoc(ms, i);
    MacroPassSnoc(dev, index, SkipFirst(ms[..i]), ms[i]);
    AppendAssoc(before, MacroPass(dev, index, SkipFirst(ms[..i])), SubobjectLines(dev, index, ms[i]));
  }

  /** Three writes to an empty file leave their concatenation. */
  lemma FromEmpty(a: seq<string>, b: seq<string>, c: seq<string>)
    ensures [] + a + b + c == a + b + c
  {
  }

  lemma AppendAssoc4(l: seq<string>, a: seq<string>, b: seq<string>, c: seq<string>, d: seq<string>)
    ensures l + a + b + c + d == l + (a + b + c + d)
  {
  }

  lemma AppendAssoc8(l: seq<string>, a: seq<string>, b: seq<string>, c: seq<string>, d: seq<string>,
                     e: seq<string>, f: seq<string>, g: seq<string>, h: seq<string>)
    ensures l + a + b + c + d + e + f + g + h == l + (a + b + c + d + e + f + g + h)
  {
    AppendAssoc4(l, a, b, c, d);
    AppendAssoc4(l + (a + b + c + d), e, f, g, h);
    AppendAssoc4(a, b, c, d, e);
  }

  /** The header being written, as the lines written so far. */
  class HeaderFile {
    var lines: seq<string>

    /** Opening the output file for writing truncates it. */
    constructor Open()
      ensures lines == []
    {
      lines := [];
    }

    /** One `write` call: its text, split at its newlines. */
    method Write(text: seq<string>)
      modifies this
      ensures lines == old(lines) + text
    {
      lines := lines + text;
    }

    /** `write_subobject_to_header`. */
    method WriteSubobjectToHeader(dev: string, index: nat, m: Var)
      requires IsMember(m.dataType)
      modifies this
      ensures lines == old(lines) + SubobjectLines(dev, index, m)
    {
      var p := "#define " + SubMacro(dev, index, m);
      Write(["/* " + m.name + " */"]);
      Write([p + "_DESCRIPTION  " + Quoted(m.name)]);
      Write([p + "_SUBINDEX     " + Dec(m.subindex)]);
      Write([p + "_DATA_TYPE    " + CTypeOfCode(m.dataType)]);
      Write([p + "_SIZE         " + StrSize(m.dataType, m.value)]);
      Write([p + "_DATA_VALUE   " + FormatValue(m.value)]);
    }

    /** `write_subobject_structure`. */
    method WriteSubobjectStructure(index: nat, m: Var)
      modifies this
      ensures lines == old(lines) + StructureLines(index, m)
    {
      Write(["    /* " + m.name + ": " + StrToDefine(m.accessType) + " access. (Index " + Hex4(index)
        + ": subindex " + Dec(m.subindex) + ") */"]);
      Write([FieldDecl(m)]);
    }

    /** `write_subobject_fill_function_assignations`. */
    method WriteSubobjectFillFunctionAssignations(dev: string, index: nat, m: Var)
      modifies this
      ensures lines == old(lines) + [FillLine(dev, index, m)]
    {
      if StrToDefine(m.accessType) == "RW" || StrToDefine(m.accessType) == "WO" {
        Write(["    p->" + Assignment(dev, index, m)]);
      } else {
        Write(["    /* " + SkipNote(m) + " */"]);
      }
    }

    /** The first pass: the macros of every sub-entry after position 0. */
    method WriteMacroPass(dev: string, index: nat, ms: seq<Var>)
      requires AllMemberCodes(SkipFirst(ms))
      modifies this
      ensures lines == old(lines) + MacroPass(dev, index, SkipFirst(ms))
    {
      for i := 0 to |ms|
        invariant AllMemberCodes(SkipFirst(ms[..i]))
        invariant lines == old(lines) + MacroPass(dev, index, SkipFirst(ms[..i]))
      {
        if i == 0 {
          continue;
        }
        MacroStep(old(lines), dev, index, ms, i);
        WriteSubobjectToHeader(dev, index, ms[i]);
      }
      assert ms[..|ms|] == ms;
    }

    /** The second pass: a comment and a field for every sub-entry after position 0. */
    method WriteStructPass(index: nat, ms: seq<Var>)
      modifies this
      ensures lines == old(lines) + StructPass(index, SkipFirst(ms))
    {
      for i := 0 to |ms|
        invariant lines == old(lines) + StructPass(index, SkipFirst(ms[..i]))
      {
        if i == 0 {
          continue;
        }
        SkipFirstSnoc(ms, i);
        StructPassSnoc(index, SkipFirst(ms[..i]), ms[i]);
        AppendAssoc(old(lines), StructPass(index, SkipFirst(ms[..i])), StructureLines(index, ms[i]));
        WriteSubobjectStructure(index, ms[i]);
      }
      assert ms[..|ms|] == ms;
    }

    /** The third pass: one fill-function line for every sub-entry after position 0. */
    method WriteFillPass(dev: string, index: nat, ms: seq<Var>)
      modifies this
      ensures lines == old(lines) + FillPass(dev, index, SkipFirst(ms))
    {
      for i := 0 to |ms|
        invariant lines == old(lines) + FillPass(dev, index, SkipFirst(ms[..i]))
      {
        if i == 0 {
          continue;
        }
        SkipFirstSnoc(ms, i);
        FillPassSnoc(dev, index, SkipFirst(ms[..i]), ms[i]);
        WriteSubobjectFillFunctionAssignations(dev, index, ms[i]);
      }
      assert ms[..|ms|] == ms;
    }

    /** The writes of `generate_c_header` before the loop over the entries. */
    method WritePrelude(guard: string, base: string, timestamp: string)
      modifies this
      ensures lines == old(lines) + Prelude(guard, base, timestamp)
    {
      Write(["/* clang-format off */", ""]);
      Write(["/**", " * " + StrVersion(), " * Base file: " + base, " * Date: " + timestamp, " */", ""]);
      Write(["#ifndef " + guard]);
      Write(["#define " + guard, ""]);
      Write(["#include <stdlib.h>", ""]);
      Write(["#include <stdint.h>", ""]);
    }

    /** The writes of `generate_c_header` after the loop over the entries. */
    method WriteClosing(guard: string)
      modifies this
      ensures lines == old(lines) + Closing(guard)
    {
      Write(["#endif /* " + guard + " */"]);
      Write(["", "/* clang-format on */"]);
    }

    /** The Record and Array branches of `write_object_to_header`. */
    method WriteComposite(dev: string, e: Entry)
      requires (e.Record? || e.Array?) && Emittable(e)
      modifies this
      ensures lines == old(lines) + CompositeLines(dev, e)
    {
      ghost var l0 := lines;
      ghost var vs := SkipFirst(e.members);
      Write(CompositeHead(dev, e));
      WriteMacroPass(dev, e.index, e.members);
      Write(StructOpen(dev, e));
      WriteStructPass(e.index, e.members);
      Write(["};"]);
      Write(FillHead(dev, e.index, e.name));
      WriteFillPass(dev, e.index, e.members);
      Write(["}"]);
      AppendAssoc8(l0, CompositeHead(dev, e), MacroPass(dev, e.index, vs), StructOpen(dev, e),
        StructPass(e.index, vs), ["};"], FillHead(dev, e.index, e.name), FillPass(dev, e.index, vs), ["}"]);
    }

    /** The Variable branch of `write_object_to_header`. */
    method WriteVariable(dev: string, v: Var)
      requires IsMember(v.dataType)
      modifies this
      ensures lines == old(lines) + VariableLines(dev, v)
    {
      ghost var l0 := lines;
      Write(VariableMacros(dev, v));
      Write(VariableStruct(dev, v));
      Write(FillHead(dev, v.index, v.name));
      Write([VariableFill(dev, v), "}"]);
      AppendAssoc4(l0, VariableMacros(dev, v), VariableStruct(dev, v), FillHead(dev, v.index, v.name), [VariableFill(dev, v), "}"]);
    }

    /** The dispatch of `write_object_to_header` on the kind of the entry. */
    method WriteEntry(dev: string, e: Entry)
      requires Emittable(e)
      modifies this
      ensures lines == old(lines) + EntryLines(dev, e)
    {
      match e
      case Variable(v) => WriteVariable(dev, v);
      case Record(_, _, _) => WriteComposite(dev, e);
      case Array(_, _, _) => WriteComposite(dev, e);
    }

    /** `write_object_to_header`: the block for the entry's kind, then a blank line. */
    method WriteObjectToHeader(dev: string, e: Entry)
      requires Emittable(e)
      modifies this
      ensures lines == old(lines) + ObjectLines(dev, e)
    {
      ghost var l0 := lines;
      WriteEntry(dev, e);
      Write([""]);
      AppendAssoc(l0, EntryLines(dev, e), [""]);
    }

    /** The loop of `generate_c_header` over the entries, in iteration order. */
    method WriteEntries(dev: string, dict: seq<Entry>)
      requires forall j :: 0 <= j < |dict| ==> Emittable(dict[j])
      modifies this
      ensures lines == old(lines) + EntriesLines(dev, dict)
    {
      ghost var pre := lines;
      for k := 0 to |dict|
        invariant lines == pre + EntriesLines(dev, dict[..k])
      {
        WriteObjectToHeader(dev, dict[k]);
        EntriesTakeStep(pre, dev, dict, k);
      }
      assert dict[..|dict|] == dict;
    }

  }

  /**
   * `generate_c_header`: opens the output, writes the prelude, the block of
   * every entry in iteration order and the closing guard. The date is passed
   * in already formatted.
   */
  method GenerateCHeader(path: string, dev: string, dict: seq<Entry>, timestamp: string) returns (f: HeaderFile)
    requires forall j :: 0 <= j < |dict| ==> Emittable(dict[j])
    ensures fresh(f)
    ensures f.lines == HeaderLines(path, dev, timestamp, dict)
  {
    var base := Basename(path);
    var guard := HeaderGuard(dev, base);
    f := new HeaderFile.Open();
    f.WritePrelude(guard, base, timestamp);
    f.WriteEntries(dev, dict);
    f.WriteClosing(guard);
    FromEmpty(Prelude(guard, base, timestamp), EntriesLines(dev, dict), Closing(guard));
    HeaderAsPieces(path, dev, timestamp, dict);
  }
}

=== FILE: numerals.dfy ===
/**
 * Positional numerals as Python renders and parses them: `str(n)` and `int(s)`
 * in base 10, and the format specifications `X`, `02X` and `04X` in base 16
 * (upper-case digits, zero padding to a minimum width).
 */
module Numerals {
  import opened Wrappers

  /** Digit characters of bases up to 16, upper case as the `X` format writes them. */
  predicate IsDigitChar(c: char) {
    '0' <= c <= '9' || 'A' <= c <= 'F'
  }

  function DigitValue(c: char): (d: nat)
    requires IsDigitChar(c)
    ensures d < 16
  {
    if c <= '9' then c as int - '0' as int else c as int - 'A' as int + 10
  }

  predicate IsDigit(c: char, base: nat) {
    IsDigitChar(c) && DigitValue(c) < base
  }

  function DigitChar(d: nat): (c: char)
    requires d < 16
    ensures IsDigit(c, d + 1) && DigitValue(c) == d
  {
    if d < 10 then ('0' as int + d) as char else ('A' as int + d - 10) as char
  }

  /** Every character of `s` is a digit of `base`. */
  predicate IsNumeral(s: string, base: nat) {
    forall i :: 0 <= i < |s| ==> IsDigit(s[i], base)
  }

  /** The shortest numeral of `n` in `base`; zero is written "0". */
  function Digits(n: nat, base: nat): string
    requires 2 <= base <= 16
    decreases n
  {
    if n < base then [DigitChar(n)] else Digits(n / base, base) + [DigitChar(n % base)]
  }

  /** The number a numeral denotes, most significant digit first. */
  function ValueOf(s: string, base: nat): nat
    requires IsNumeral(s, base)
    decreases |s|
  {
    if s == [] then 0
    else
      var front := s[..|s| - 1];
      assert IsNumeral(front, base) by {
        forall i | 0 <= i < |front| ensures IsDigit(front[i], base) {
          assert front[i] == s[i];
        }
      }
      ValueOf(front, base) * base + DigitValue(s[|s| - 1])
  }

  function Zeros(k: nat): (r: string)
    ensures |r| == k && forall i :: 0 <= i < k ==> r[i] == '0'
  {
    if k == 0 then [] else Zeros(k - 1) + ['0']
  }

  /** Python's zero padding to a minimum field width. */
  function PadZeros(s: string, width: nat): (r: string)
    ensures |r| == if |s| < width then width else |s|
    ensures r[|r| - |s|..] == s
    ensures forall i :: 0 <= i < |r| - |s| ==> r[i] == '0'
  {
    if |s| >= width then s else Zeros(width - |s|) + s
  }

  /**
   * Python's `format(n, "0<width>X")` for a non-negative integer: at least
   * `width` characters and at least one, all upper-case hex digits.
   */
  function Hex(n: nat, width: nat): (r: string)
    ensures |r| >= width && |r| >= 1
    ensures IsNumeral(r, 16)
  {
    var d := Digits(n, 16);
    DigitsRoundTrip(n, 16);
    LeadingZerosValue(if |d| < width then width - |d| else 0, d, 16);
    assert Zeros(0) + d == d;
    PadZeros(d, width)
  }

  /**
   * Python's `str(i)` for an integer: a non-empty text that starts with '-'
   * exactly when the integer is negative, and then has digits after it.
   */
  function IntToDecimal(i: int): (r: string)
    ensures |r| >= 1
    ensures r[0] == '-' <==> i < 0
    ensures i < 0 ==> |r| >= 2
  {
    DigitsRoundTrip(if i < 0 then -i else i, 10);
    if i < 0 then "-" + Digits(-i, 10) else Digits(i, 10)
  }

  /**
   * Python's `int(s)` on a string made of an optional minus sign and decimal
   * digits: it accepts exactly the non-empty digit strings, with or without a
   * leading '-', and the sign of the result follows the '-'.
   */
  function ParseDecimal(s: string): (r: Option<int>)
    ensures r.Some? <==> |s| > 0 && (IsNumeral(s, 10) || (s[0] == '-' && |s| > 1 && IsNumeral(s[1..], 10)))
    ensures r.Some? && s[0] == '-' ==> r.value <= 0
    ensures r.Some? && s[0] != '-' ==> r.value >= 0
  {
    if |s| > 0 && s[0] == '-' then
      if |s| > 1 && IsNumeral(s[1..], 10) then Some(-(ValueOf(s[1..], 10) as int)) else None
    else if |s| > 0 && IsNumeral(s, 10) then Some(ValueOf(s, 10))
    else None
  }

  /** Rendering then reading back gives the number, in any base. */
  lemma {:induction false} DigitsRoundTrip(n: nat, base: nat)
    requires 2 <= base <= 16
    ensures |Digits(n, base)| >= 1
    ensures IsNumeral(Digits(n, base), base)
    ensures ValueOf(Digits(n, base), base) == n
    decreases n
  {
    if n < base {
      var s := [DigitChar(n)];
      assert s == Digits(n, base);
      assert s[..0] == [];
      assert ValueOf(s, base) == 0 * base + n;
    } else {
      var q, r := n / base, n % base;
      DivStep(n, base);
      DigitsRoundTrip(q, base);
      var front, last := Digits(q, base), DigitChar(r);
      assert Digits(n, base) == front + [last];
      NumeralSnoc(front, last, base);
    }
  }

  /** Appending a digit shifts the value by one place. */
  lemma NumeralSnoc(front: string, c: char, base: nat)
    requires IsNumeral(front, base) && IsDigit(c, base)
    ensures IsNumeral(front + [c], base)
    ensures ValueOf(front + [c], base) == ValueOf(front, base) * base + DigitValue(c)
  {
    var s := front + [c];
    assert s[..|s| - 1] == front;
  }

  /** Dividing by a base of at least 2 leaves a smaller quotient and a digit. */
  lemma DivStep(n: nat, base: nat)
    requires 2 <= base && base <= n
    ensures n / base < n && n % base < base && (n / base) * base + n % base == n
  {
    var q, r := n / base, n % base;
    DivMod(n, base);
    assert 0 <= r < base;
    MulMono(q, 2, base);
  }

  lemma MulMono(k: nat, a: nat, b: nat)
    requires a <= b
    ensures k * a <= k * b
  {
  }

  lemma DivMod(n: nat, base: nat)
    requires base > 0
    ensures (n / base) * base + n % base == n
  {
  }

  /** Leading zeros do not change the value of a numeral. */
  lemma {:induction false} LeadingZerosValue(k: nat, s: string, base: nat)
    requires 2 <= base <= 16 && IsNumeral(s, base)
    ensures IsNumeral(Zeros(k) + s, base)
    ensures ValueOf(Zeros(k) + s, base) == ValueOf(s, base)
    decreases |s| + k
  {
    var t := Zeros(k) + s;
    assert IsNumeral(t, base) by {
      forall i | 0 <= i < |t| ensures IsDigit(t[i], base) {
        if i >= k { assert t[i] == s[i - k]; }
      }
    }
    if s == [] {
      assert t == Zeros(k);
      if k > 0 {
        LeadingZerosValue(k - 1, [], base);
        assert t[..|t| - 1] == Zeros(k - 1) + [];
      }
    } else {
      var front := s[..|s| - 1];
      assert IsNumeral(front, base) by {
        forall i | 0 <= i < |front| ensures IsDigit(front[i], base) { assert front[i] == s[i]; }
      }
      LeadingZerosValue(k, front, base);
      assert t[..|t| - 1] == Zeros(k) + front;
    }
  }

  function Pow(b: nat, k: nat): nat {
    if k == 0 then 1 else b * Pow(b, k - 1)
  }

  /** A number below `base^k` has at most `k` digits. */
  lemma {:induction false} DigitsBound(n: nat, base: nat, k: nat)
    requires 2 <= base <= 16 && 1 <= k && n < Pow(base, k)
    ensures |Digits(n, base)| <= k
    decreases n
  {
    if n >= base {
      var q := n / base;
      DivStep(n, base);
      if k == 1 {
        assert false;
      }
      var p := Pow(base, k - 1);
      if q >= p {
        MulMono(base, p, q);
        assert false;
      }
      DigitsBound(q, base, k - 1);
    }
  }

  /** `format(n, "0<width>X")` is at least `width` upper-case hex digits whose value is `n`. */
  lemma HexRoundTrip(n: nat, width: nat)
    ensures |Hex(n, width)| >= width && |Hex(n, width)| >= 1
    ensures IsNumeral(Hex(n, width), 16)
    ensures ValueOf(Hex(n, width), 16) == n
  {
    var d := Digits(n, 16);
    DigitsRoundTrip(n, 16);
    if |d| < width {
      LeadingZerosValue(width - |d|, d, 16);
    }
  }

  /** `int(str(i)) == i` for every integer. */
  lemma DecimalRoundTrip(i: int)
    ensures ParseDecimal(IntToDecimal(i)) == Some(i)
  {
    if i < 0 {
      var d := Digits(-i, 10);
      DigitsRoundTrip(-i, 10);
      var s := "-" + d;
      assert s == IntToDecimal(i);
      assert s[0] == '-' && s[1..] == d;
    } else {
      var d := Digits(i, 10);
      DigitsRoundTrip(i, 10);
      assert d == IntToDecimal(i);
      assert IsDigit(d[0], 10);
    }
  }
}

=== FILE: sanitize.dfy ===
/**
 * The identifier sanitisers `str_low` and `str_to_define`: every character
 * outside [A-Za-z0-9] becomes '_', then the result is lower-cased or
 * upper-cased. After the replacement only ASCII characters remain, so the
 * case change is the ASCII one.
 */
module Sanitize {

  predicate IsAlnum(c: char) {
    'a' <= c <= 'z' || 'A' <= c <= 'Z' || '0' <= c <= '9'
  }

  /** The alphabet of `str_low` results: [a-z0-9_]. */
  predicate IsLowToken(c: char) {
    'a' <= c <= 'z' || '0' <= c <= '9' || c == '_'
  }

  /** The alphabet of `str_to_define` results: [A-Z0-9_]. */
  predicate IsDefineToken(c: char) {
    'A' <= c <= 'Z' || '0' <= c <= '9' || c == '_'
  }

  function ToLower(c: char): char {
    if 'A' <= c <= 'Z' then (c as int - 'A' as int + 'a' as int) as char else c
  }

  function ToUpper(c: char): char {
    if 'a' <= c <= 'z' then (c as int - 'a' as int + 'A' as int) as char else c
  }

  /** `re.sub(r'[^a-zA-Z0-9]', '_', s)`. */
  function Replaced(s: string): (r: string)
    ensures |r| == |s|
    ensures forall i :: 0 <= i < |s| ==> r[i] == if IsAlnum(s[i]) then s[i] else '_'
  {
    if s == [] then [] else Replaced(s[..|s| - 1]) + [if IsAlnum(s[|s| - 1]) then s[|s| - 1] else '_']
  }

  /** `.lower()` on the ASCII text left by the replacement. */
  function Lower(s: string): (r: string)
    ensures |r| == |s| && forall i :: 0 <= i < |s| ==> r[i] == ToLower(s[i])
  {
    seq(|s|, i requires 0 <= i < |s| => ToLower(s[i]))
  }

  /** `.upper()` on the ASCII text left by the replacement. */
  function Upper(s: string): (r: string)
    ensures |r| == |s| && forall i :: 0 <= i < |s| ==> r[i] == ToUpper(s[i])
  {
    seq(|s|, i requires 0 <= i < |s| => ToUpper(s[i]))
  }

  /** `str_low`: one character out per character in, from [a-z0-9_]; letters keep their place. */
  function StrLow(s: string): (r: string)
    ensures |r| == |s|
    ensures forall i :: 0 <= i < |r| ==> IsLowToken(r[i])
    ensures forall i :: 0 <= i < |s| ==> (IsAlnum(s[i]) ==> r[i] == ToLower(s[i])) && (!IsAlnum(s[i]) ==> r[i] == '_')
  {
    Lower(Replaced(s))
  }

  /** `str_to_define`: one character out per character in, from [A-Z0-9_]; letters keep their place. */
  function StrToDefine(s: string): (r: string)
    ensures |r| == |s|
    ensures forall i :: 0 <= i < |r| ==> IsDefineToken(r[i])
    ensures forall i :: 0 <= i < |s| ==> (IsAlnum(s[i]) ==> r[i] == ToUpper(s[i])) && (!IsAlnum(s[i]) ==> r[i] == '_')
  {
    Upper(Replaced(s))
  }

  /** A string already made of [a-z0-9_] is left as it is by `str_low`. */
  lemma StrLowFixesTokens(s: string)
    requires forall i :: 0 <= i < |s| ==> IsLowToken(s[i])
    ensures StrLow(s) == s
  {
    var r := StrLow(s);
    forall i | 0 <= i < |s| ensures r[i] == s[i] {
      if s[i] == '_' { assert !IsAlnum(s[i]); }
    }
  }

  /** A string already made of [A-Z0-9_] is left as it is by `str_to_define`. */
  lemma StrToDefineFixesTokens(s: string)
    requires forall i :: 0 <= i < |s| ==> IsDefineToken(s[i])
    ensures StrToDefine(s) == s
  {
    var r := StrToDefine(s);
    forall i | 0 <= i < |s| ensures r[i] == s[i] {
      if s[i] == '_' { assert !IsAlnum(s[i]); }
    }
  }

  /** `str_low` is idempotent. */
  lemma StrLowIdempotent(s: string)
    ensures StrLow(StrLow(s)) == StrLow(s)
  {
    StrLowFixesTokens(StrLow(s));
  }

  /** `str_to_define` is idempotent. */
  lemma StrToDefineIdempotent(s: string)
    ensures StrToDefine(StrToDefine(s)) == StrToDefine(s)
  {
    StrToDefineFixesTokens(StrToDefine(s));
  }

  /** The two sanitisers agree up to case: lowering the macro token gives the identifier token. */
  lemma LowOfDefine(s: string)
    ensures StrLow(StrToDefine(s)) == StrLow(s)
  {
    var a, b := StrLow(StrToDefine(s)), StrLow(s);
    forall i | 0 <= i < |s| ensures a[i] == b[i] {
    }
  }

  /** Names that differ only in punctuation collide; the generator does not detect it. */
  lemma PunctuationCollides()
    ensures StrToDefine("A-B") == StrToDefine("A.B") == "A_B"
  {
  }
}

=== FILE: values.dfy ===
/**
 * Default values of dictionary entries and the two text builders that use
 * them: `format_value` (the C literal of a default) and `str_size` (the
 * `sizeof` expression of an entry).
 */
module Values {
  import opened Wrappers
  import Numerals
  import DataTypes

  /**
   * A default value as the dictionary provider hands it over: absent (None),
   * an integer, or any other value, carried as the text Python's `str()`
   * gives it (a string is its own text, a float its shortest repr, ...).
   */
  datatype Value = Absent | Int(n: int) | Other(text: string)

  /** The text an f-string substitutes for the value. */
  function PyStr(v: Value): string {
    match v
    case Absent => "None"
    case Int(n) => Numerals.IntToDecimal(n)
    case Other(text) => text
  }

  function Quoted(s: string): (r: string)
    ensures |r| == |s| + 2 && r[0] == '"' && r[|r| - 1] == '"' && r[1..|r| - 1] == s
  {
    "\"" + s + "\""
  }

  /**
   * `format_value`: the literal "0" only for an absent value; a negative
   * integer starts with '-', a non-negative one with "0x" and at least two
   * digits, and any other value with a double quote.
   */
  function FormatValue(v: Value): (r: string)
    ensures r == "0" <==> v.Absent?
    ensures v.Int? && v.n < 0 ==> |r| >= 2 && r[0] == '-'
    ensures v.Int? && v.n >= 0 ==> |r| >= 4 && r[..2] == "0x"
    ensures v.Other? ==> |r| >= 2 && r[0] == '"'
  {
    match v
    case Absent => "0"
    case Int(n) => if n < 0 then Numerals.IntToDecimal(n) else "0x" + Numerals.Hex(n, 2)
    case Other(text) => Quoted(text)
  }

  /** An absent default becomes the literal 0; a negative integer its signed decimal text. */
  lemma FormatAbsentAndNegative(n: int)
    requires n < 0
    ensures FormatValue(Absent) == "0"
    ensures FormatValue(Int(n))[0] == '-'
    ensures Numerals.ParseDecimal(FormatValue(Int(n))) == Some(n)
  {
    Numerals.DecimalRoundTrip(n);
  }

  /**
   * A non-negative integer becomes "0x" and at least two upper-case hex
   * digits, which read back in base 16 give the integer.
   */
  lemma FormatHexRoundTrip(n: nat)
    ensures var r := FormatValue(Int(n));
      |r| >= 4 && r[..2] == "0x" &&
      Numerals.IsNumeral(r[2..], 16) && Numerals.ValueOf(r[2..], 16) == n
  {
    Numerals.HexRoundTrip(n, 2);
    var r := FormatValue(Int(n));
    assert r[2..] == Numerals.Hex(n, 2);
  }

  /** Any other value is wrapped in double quotes, with nothing escaped. */
  lemma FormatOther(text: string)
    ensures var r := FormatValue(Other(text));
      |r| == |text| + 2 && r[0] == '"' && r[|r| - 1] == '"' && r[1..|r| - 1] == text
  {
  }

  lemma FormatSamples()
    ensures FormatValue(Absent) == "0"
    ensures FormatValue(Int(10)) == "0x0A"
    ensures FormatValue(Int(0)) == "0x00"
    ensures FormatValue(Int(0x1018)) == "0x1018"
    ensures FormatValue(Int(-5)) == "-5"
    ensures FormatValue(Other("abc")) == "\"abc\""
  {
  }

  /**
   * `str_size`: the size of a VISIBLE_STRING entry is the size of a string
   * literal holding its own default; any other entry has the size of its C
   * type. The code must be a member: `data_type(code)` raises otherwise.
   */
  function StrSize(code: int, value: Value): (r: string)
    requires DataTypes.IsMember(code)
    ensures |r| >= 9 && r[..7] == "sizeof(" && r[|r| - 1] == ')'
    ensures r[7] == '"' <==> code == DataTypes.Code(DataTypes.VisibleString)
  {
    if code == DataTypes.Code(DataTypes.VisibleString) then "sizeof(" + Quoted(PyStr(value)) + ")"
    else "sizeof(" + DataTypes.CTypeOfCode(code) + ")"
  }

  /**
   * The size of a member other than VISIBLE_STRING is that of the member's C
   * type from the table; only a visible string is sized by its value's text.
   */
  lemma StrSizeOfType(code: int, value: Value)
    requires DataTypes.IsMember(code) && code != DataTypes.Code(DataTypes.VisibleString)
    ensures DataTypes.FromCode(code).Some?
    ensures StrSize(code, value) == "sizeof(" + DataTypes.CName(DataTypes.FromCode(code).value) + ")"
  {
    DataTypes.MembersAreExactly(code);
  }

  /** A visible string is sized by its literal, never by the pointer type "char*". */
  lemma StrSizeOfVisibleString(value: Value)
    ensures var r := StrSize(DataTypes.Code(DataTypes.VisibleString), value);
      |r| == |PyStr(value)| + 10 && r[..8] == "sizeof(\"" &&
      r[8..|r| - 2] == PyStr(value) && r[|r| - 2..] == "\")"
    ensures StrSize(DataTypes.Code(DataTypes.VisibleString), value) != "sizeof(char*)"
  {
    var r := StrSize(DataTypes.Code(DataTypes.VisibleString), value);
    assert r == "sizeof(" + Quoted(PyStr(value)) + ")";
    assert r[7] == '"';
    assert r[8..|r| - 2] == PyStr(value);
  }

  lemma StrSizeSamples()
    ensures StrSize(9, Other("hello")) == "sizeof(\"hello\")"
    ensures StrSize(7, Int(5)) == "sizeof(uint32_t)"
  {
  }
}

=== FILE: wrappers.dfy ===
/** The optional-value datatype used wherever the generator has a "no result" case. */
module Wrappers {

  datatype Option<+T> = None | Some(value: T)
}
